=== FILE: README.md ===
# Onda dApp core: loan cache patches, loan arithmetic, tables and account records

This project models the side-effect-free core of the Onda (Dexloan) web dApp.
In that Solana application, borrowers list NFTs as loan collateral, lenders
post and take loan offers, and call options are bought and sold. The model
covers five areas:

- **Cache patches.** After a transaction succeeds, the loan mutation handlers
  patch the react-query cache. They can append a predicted loan, merge or
  decrement grouped offers, remove entries by address, or shallow-merge a
  state change into a cached loan. `pickOfferIds` chooses free offer ids in
  0..255. The cache is modelled as four maps from query key to optional list
  (module `LoanCache`).
- **Loan arithmetic and formatting.** The late fee, interest due, amount on
  maturity and expiry test. The amount and duration strings. NUL trimming
  and the symbol lookups (module `Utils`).
- **Loan table sorting.** The sort-state reducer and the column comparators
  (module `Tables`).
- **Call-option accounts.** The `CallOption` record with its role tests,
  getters and `pretty`/`fromJSON` round trip (modules `CallOptions` and
  `TokenMetadata`).
- **Account queries.** The seed lists of derived addresses, the validation
  order of `unpackToken`, the null-dropping metadata fetch, the NFT
  membership filter, and the sort, pair and drop of `fetchMultipleLoans`
  (modules `QueryCommon` and `QueryLoan`).

Several modules support these:

- `Wrappers` holds Option and Result.
- `Digits` holds base conversion, decimal and hex strings, and parse round
  trips.
- `Keys` models 32-byte public keys, `toBuffer`, base58 encoding, and
  `new PublicKey(string)` decoding with leading `1`s.

Some things the source computes are given to the model as parameters:

- The current time is an explicit millisecond value `nowMs`, as `Date.now()`
  returns it.
- Program-address derivation (`findProgramAddress`), `AccountLayout.decode`,
  `Metadata.fromAccountInfo`, RPC account reads and the token-manager lookup
  are function parameters.
- The derived loan and collection addresses, the fetched collection and
  metadata, and the wallet key come into the handlers as parameters.

## Model

| member | source | states |
|---|---|---|
| Utils.ToDays | common/utils/index.ts:16-18 | the nearest whole number of days, with halves rounded up: `days*86400 - 43200 <= seconds < days*86400 + 43200` |
| Utils.FormatDuration | common/utils/index.ts:20-23 | the text is "1 day" exactly when the day count is 1; otherwise it is a decimal that parses back to the day count, followed by " days" |
| Utils.FormatDurationSingular | common/utils/index.ts:16-23 | the singular is used exactly when half a day <= seconds < a day and a half |
| Utils.HasExpired | common/utils/index.ts:25-27 | true exactly when `nowMs > 1000 * (startDate + duration)`, strictly |
| Utils.LateRepaymentFee | common/utils/index.ts:54-59 | the fee is 500 basis points rounded down: `fee*20 <= amount < (fee+1)*20` |
| Utils.LateRepaymentFeeBounds | common/utils/index.ts:57-59 | the fee never exceeds the amount and is monotone in it |
| Utils.TruncDiv | common/utils/index.ts:70 | `new BN` of the interest quotient rounds toward zero, for either sign |
| Utils.ProRataInterestNonNegative | common/utils/index.ts:47-52 | pro-rata interest is non-negative for non-negative basis points and elapsed time |
| Utils.ProRataInterest | common/utils/index.ts:47-52 | `amount` times the pro-rata rate for `elapsed` seconds, truncated toward zero: the result times 10,000 times the seconds in a year lies within one divisor of `amount * basisPoints * elapsed`, on the side toward zero |
| Utils.InterestDue | common/utils/index.ts:61-75 | with the late fee taken off when `expired` is set, what remains is `amount * basisPoints * elapsed / (10,000 * seconds per year)` truncated toward zero, for the whole seconds elapsed since `startDate` |
| Utils.InterestDueIncludesFeeIffExpired | common/utils/index.ts:61-75 | with `expired` computed by `hasExpired` at the same instant, the fee is included exactly when the loan is past due (for amounts with a non-zero fee) |
| Utils.InterestOnMaturity | common/utils/index.ts:90-97 | the interest for the whole duration is `amount * basisPoints * duration / (10,000 * seconds per year)` truncated toward zero |
| Utils.AmountOnMaturity | common/utils/index.ts:99-105 | for non-negative basis points and duration, the amount on maturity minus the principal is the greatest whole number of lamports not above `amount * basisPoints * duration / (10,000 * seconds per year)` |
| Utils.AmountOnMaturityBounds | common/utils/index.ts:90-105 | never below the principal; a longer duration never gives less |
| Utils.AmountOnMaturityExample | common/utils/index.ts:90-105 | 1,000,000,000 lamports at 1000 basis points for 30 days come to 1,008,219,178 |
| Utils.RoundedMilliSol | common/utils/index.ts:149-150 | `Math.round` of the amount in thousandths of a SOL, with halves rounded up |
| Utils.FormatMilli | common/utils/index.ts:155 | `toFixed(3)` with one or two trailing zeros cut: the whole part, a point, then a prefix of the three fixed digits whose dropped digits are all "0"; when two or three digits remain the last is not "0" |
| Utils.ParseFormatMilli | common/utils/index.ts:155 | the printed thousandths read back as the same value |
| Utils.FormatAmount | common/utils/index.ts:138-161 | "" exactly for a missing amount; "0◎" for zero; "~0.001◎" for other amounts that round to at most 0.001 SOL; otherwise the rounded thousandths printed as by Utils.FormatMilli, then "◎" |
| Utils.FormatAmountApproximate | common/utils/index.ts:152-156 | a non-zero amount prints "~0.001◎" exactly when it is below 0.0015 SOL |
| Utils.FormatAmountReadsBack | common/utils/index.ts:149-156 | any other non-zero amount prints as its rounded thousandths followed by "◎" |
| Utils.FormatAmountStable | common/utils/index.ts:149-156 | formatting the value a formatted string denotes gives the same string |
| Utils.FormatMilliExample | common/utils/index.ts:155 | 1008 thousandths print as "1.008" |
| Utils.FormatAmountExample | common/utils/index.ts:138-161 | the maturity amount of the example prints as "1.008◎" |
| Utils.TrimNullChars | common/utils/index.ts:199-201 | no NUL remains; every other character keeps its count |
| Utils.TrimNullCharsConcat | common/utils/index.ts:199-201 | trimming distributes over concatenation, so the order of the other characters is kept |
| Utils.TrimNullCharsIdentity | common/utils/index.ts:199-201 | NUL-free text is unchanged |
| Utils.TrimNullCharsIdempotent | common/utils/index.ts:199-201 | trimming twice is trimming once |
| Utils.GetFloorPrice | common/utils/index.ts:179-186 | no price without a table or a non-empty symbol; otherwise a price exactly when the NUL-trimmed, lower-cased symbol is a key, and then the entry for that key |
| Utils.GetFloorPricePadded | common/utils/index.ts:179-186 | NUL padding on the symbol does not change the price found |
| Utils.GetFloorPriceCaseInsensitive | common/utils/index.ts:183-184 | a symbol and its lower-cased form find the same price |
| Utils.MapSymbolToCollectionName | common/utils/index.ts:167-177 | a name exactly when the NUL-trimmed symbol is in the table, and then the table entry for it |
| Utils.MapSymbolPadded | common/utils/index.ts:175-177 | a NUL-padded symbol maps as the bare symbol does |
| Utils.MapSymbolExample | common/utils/index.ts:167-177 | "CHKN" padded with NULs maps to "chicken_tribe" |
| Tables.SortReducer | components/tables/common.ts:7-14 | the current column flips the direction; another column is selected ascending |
| Tables.SortReducerTwice | components/tables/common.ts:7-14 | selecting the current column twice restores the state; selecting another twice leaves it descending |
| Tables.SortReducerDirection | components/tables/common.ts:7-14 | from a direction of 1 or -1, any sequence of clicks keeps it at 1 or -1 |
| Tables.CompareBy | components/tables/common.ts:16-43 | each known column gets its comparator with the given direction; any other gets the constant one |
| Tables.UnlistedColumn | components/tables/common.ts:37-41 | the default comparator always returns 1 |
| Tables.Oriented | components/tables/common.ts:46-49 | the pair is swapped exactly when the direction is -1 |
| Tables.CompareDescending | components/tables/common.ts:45-111 | a descending comparator compares the swapped pair ascending |
| Tables.AmountOrder | components/tables/common.ts:51-57 | a missing first amount gives -1; present then missing gives 1; otherwise the difference |
| Tables.SortByAmount | components/tables/common.ts:45-59 | antisymmetric when at least one amount is present; two missing amounts each compare as smaller |
| Tables.SortByBasisPoints | components/tables/common.ts:61-69 | `a.bp - b.bp` ascending and `b.bp - a.bp` descending, so it is antisymmetric |
| Tables.SortByDuration | components/tables/common.ts:103-111 | the same for durations |
| Tables.LoanToValue | components/tables/common.ts:93-94 | the ratio times the price is 100 times the amount |
| Tables.LtvOrder | components/tables/common.ts:71-100 | -1 without a table, without a usable price for either row, or without either amount |
| Tables.SortByLtvEarlyExit | components/tables/common.ts:77-99 | the early exits give -1 in either order of the rows |
| Keys.ToBuffer | common/query/loan.ts:18 | 32 bytes whose big-endian value is the key |
| Keys.ToBufferInjective | common/query/loan.ts:18 | distinct keys have distinct buffers |
| Keys.Base58RoundTrip | common/model/callOption.ts:103-107 | `new PublicKey(k.toBase58())` is `k`, leading zero bytes included |
| Keys.Base58Injective | common/model/callOption.ts:86-90 | distinct keys print differently |
| CallOptions.ToNumber | common/model/callOption.ts:85-89 | `toNumber` succeeds exactly on safe integers and keeps the value |
| CallOptions.IsBuyer | common/model/callOption.ts:24-29 | false without a wallet; otherwise key equality; a null buyer throws |
| CallOptions.IsSeller | common/model/callOption.ts:31-36 | the same against the seller |
| CallOptions.RolesExclusive | common/model/callOption.ts:24-36 | no wallet is both buyer and seller when those keys differ |
| CallOptions.Address | common/model/callOption.ts:38-40 | the address decodes back to the account key |
| CallOptions.Expired | common/model/callOption.ts:51-53 | true exactly when `nowMs > 1000 * expiry`; an unsafe expiry throws |
| CallOptions.ExpiredAgreesWithHasExpired | common/model/callOption.ts:51-53 | expiry agrees with `hasExpired` for a zero duration |
| CallOptions.BuyerAddress | common/model/callOption.ts:63-65 | "" exactly without a buyer; otherwise a string that decodes to the buyer |
| CallOptions.SellerAddress | common/model/callOption.ts:71-73 | the same for the seller |
| CallOptions.HasBuyer | common/model/callOption.ts:67-69 | true exactly when the buyer is not the all-zero system program; a null buyer throws |
| CallOptions.State | common/model/callOption.ts:75-79 | the first key of an object state; undefined otherwise |
| CallOptions.Pretty | common/model/callOption.ts:81-96 | succeeds exactly with safe numbers and a seller; fields are evaluated in order, so an unsafe amount is reported before a null seller |
| CallOptions.KeyFromJson | common/model/callOption.ts:103-104 | an undefined key throws; a string is base58-decoded, and throws when it does not decode |
| CallOptions.FromJson | common/model/callOption.ts:98-124 | the state becomes a one-key object (named "undefined" when missing); an undefined buyer throws; the metadata's account kind becomes 0 |
| CallOptions.PrettyRoundTrip | common/model/callOption.ts:81-124 | every printable option prints; with a buyer, `fromJSON(pretty(c))` succeeds and keeps state name, amounts, seller, buyer, expiry, strike price, mint, bump and address |
| CallOptions.PrettyWithoutBuyerThrows | common/model/callOption.ts:81-124 | an option without a buyer prints, but `fromJSON` of the result throws |
| CallOptions.PrettyRoundTripExact | common/model/callOption.ts:81-124 | an option with a buyer and a one-key state comes back exactly, apart from the metadata's account kind |
| TokenMetadata.Pretty | common/model/callOption.ts:93 | the two keys print in base58 and decode back; data and collection pass through |
| TokenMetadata.FromPretty | common/model/callOption.ts:110-121 | succeeds exactly when both keys decode; the account kind is 0 |
| TokenMetadata.PrettyRoundTrip | common/model/callOption.ts:110-121 | printing and reading back keeps everything except the account kind |
| QueryCommon.MetadataSeeds | common/query/common.ts:25-30 | the seeds `findMetadataAddress` (QueryCommon.FindMetadataAddress) derives from under the metadata program: "metadata", the metadata program id and the mint's 32 bytes, in that order |
| QueryCommon.EditionSeeds | common/query/common.ts:13-23 | the seeds `findEditionAddress` (QueryCommon.FindEditionAddress) derives from under the metadata program: the metadata seeds followed by "edition" |
| QueryCommon.MintOfSeeds | common/query/common.ts:13-30 | the mint is recovered from its third seed |
| QueryCommon.SeedsIdentifyMint | common/query/common.ts:13-30 | both seed lists determine the mint; metadata and edition seeds never coincide |
| QueryCommon.Account | common/query/common.ts:71-85 | initialized iff not Uninitialized; frozen iff Frozen; delegate, reserve and close authority null exactly when their option tag is 0 |
| QueryCommon.UnpackTokenAsWritten | common/query/common.ts:58-86 | the code's order: not found, then the decode failure, then owner and size |
| QueryCommon.UnpackToken | common/query/common.ts:58-86 | not found, then invalid owner, then invalid size, each exactly when its check is the first to fail; success decodes the account |
| QueryCommon.UnpackOrderHidesOwnerError | common/query/common.ts:63-69 | an empty account of another owner fails decoding in the code's order, but is an invalid owner in the checked order |
| QueryCommon.UnpackOrdersAgree | common/query/common.ts:63-69 | both orders agree on a well-owned account of the right size |
| QueryCommon.UnpackOrdersAgreeOnSuccess | common/query/common.ts:58-86 | for an account the token program owns and a decoder that reads only the account's prefix, both orders succeed together with the same account |
| QueryCommon.NotNull | common/query/common.ts:52-54 | no longer than the input; only present values; all of them when none is missing |
| QueryCommon.NotNullConcat | common/query/common.ts:52-54 | dropping nulls distributes over concatenation, so order is kept |
| QueryCommon.NotNullKeepsPresent | common/query/common.ts:52-54 | every present value survives |
| QueryCommon.FetchMetadataAccounts | common/query/common.ts:40-55 | no more results than mints; every result is the parsed account of some mint; every existing account is parsed into the result |
| QueryCommon.FindByMint | common/query/common.ts:139-141 | found exactly when some token account has the mint; the account found is the first one with the mint, as `find` returns |
| QueryCommon.CombineNft | common/query/common.ts:136-170 | kept exactly when a token account with the mint exists, the collection key is a collection mint, and an empty or frozen account has a token manager |
| QueryCommon.UnpackAll | common/query/common.ts:122-126 | on success every raw account is unpacked by the decode-first `unpackToken`, in order; a failure means some raw account does not unpack that way |
| QueryCommon.CombineAll | common/query/common.ts:136-171 | every kept entry pairs metadata with a token account of the same mint in a listed collection |
| QueryCommon.FetchNfts | common/query/common.ts:105-175 | fails exactly when some token account does not unpack by the decode-first `unpackToken`; otherwise the kept NFTs are in a listed collection with a matching token account |
| QueryLoan.LoanSeeds | common/query/loan.ts:13-23 | the seeds `findLoanAddress` (QueryLoan.FindLoanAddress) derives from under the listings program: "loan", the mint's bytes and the borrower's bytes, in that order |
| QueryLoan.LoanSeedsInjective | common/query/loan.ts:17-20 | the seeds determine mint and borrower, depend on their order, and never equal metadata seeds |
| QueryLoan.Insert | common/query/loan.ts:51-53 | inserting into a sorted list keeps it sorted and adds exactly the element |
| QueryLoan.InsertWithAmount | common/query/loan.ts:51-53 | the inserted listing goes in front of every listing of its amount already in the list, and the others of each amount keep their order |
| QueryLoan.SortByAmount | common/query/loan.ts:48-54 | listings in non-decreasing amount order, as a permutation of the input |
| QueryLoan.SortByAmountStable | common/query/loan.ts:48-54 | the sort is stable, as `Array.prototype.sort` is: for every amount, the listings of that amount come out in their input order |
| QueryLoan.LoanOf | common/query/loan.ts:58-69 | a record exactly when the listing has metadata; it carries the listing's key and account, standing for the printed `Loan` |
| QueryLoan.CombineLoansSound | common/query/loan.ts:58-71 | every record describes some listing |
| QueryLoan.CombineLoansComplete | common/query/loan.ts:58-71 | every listing with metadata yields its record |
| QueryLoan.CombineLoansSorted | common/query/loan.ts:58-71 | sorted listings yield records sorted by amount |
| QueryLoan.FetchMultipleLoans | common/query/loan.ts:42-72 | sorted by amount, no longer than the listings, and exactly the listings with metadata, each paired with its own metadata |
| QueryLoan.PairByIndex | common/query/loan.ts:58-69 | listing i gets a record exactly when the metadata list has an i-th entry |
| QueryLoan.MetadataList | common/query/loan.ts:56 | one metadata read per sorted listing, in order |
| QueryLoan.FetchMultipleLoansAsWritten | common/query/loan.ts:42-72 | the listing records are passed where mints are expected, so the fetch rejects with a TypeError exactly when there is a listing; with none it returns no loans |
| QueryLoan.MintBuffer | common/query/common.ts:25-30 | `mint.toBuffer()` gives a key's bytes and throws on a listing record |
| QueryLoan.MintBuffers | common/query/common.ts:40-46 | every argument's bytes, in order, exactly when every argument is a key |
| QueryLoan.FetchMultipleLoansByIndex | common/query/loan.ts:56-71 | with the mints passed, the pairing as written: the compacted metadata list is indexed by listing position; never more loans than listings |
| QueryLoan.NotNullAllPresent | common/query/common.ts:52-54 | with nothing missing, dropping nulls only unwraps the values |
| QueryLoan.CombineAllPresent | common/query/loan.ts:58-71 | with metadata for every listing, the records are the listings in order |
| QueryLoan.AgreeOnSorted | common/query/loan.ts:56-71 | with no missing metadata, pairing by index is pairing by listing |
| QueryLoan.ByIndexAgreesWithoutGaps | common/query/loan.ts:42-72 | the pairing by index and the per-listing pairing agree when every listing has metadata |
| QueryLoan.MisalignedMetadata | common/query/loan.ts:56-71 | two listings where only the second has metadata: the code as written rejects; with the mints passed, the first listing gets the second's metadata; the corrected pipeline pairs the second with it |
| QueryLoan.ShiftedPairing | common/query/loan.ts:58-59 | the index lookup after compaction gives the first listing the second one's metadata |
| LoanCache.ToHexString | hooks/mutation/loan.ts:85-89 | the hex text parses back to the number |
| LoanCache.Without | hooks/mutation/loan.ts:577 | no kept entry has the address; entries are only kept; every entry with another address is kept |
| LoanCache.WithoutConcat | hooks/mutation/loan.ts:642 | filtering distributes over concatenation, so order is kept |
| LoanCache.WithoutIdempotent | hooks/mutation/loan.ts:642 | filtering twice is filtering once |
| LoanCache.WithoutAbsent | hooks/mutation/loan.ts:577 | a list without the address is unchanged |
| LoanCache.RemoveLoanFromList | hooks/mutation/loan.ts:634-645 | every loan list is filtered, with a list lacking data treated as empty; nothing else changes |
| LoanCache.RemoveLoanFromListSpec | hooks/mutation/loan.ts:634-645 | per list: it holds data, no loan has the address, every other loan stays, and removing again changes nothing |
| LoanCache.RemoveLoanFromListLeaves | hooks/mutation/loan.ts:634-645 | the per-list guarantees hold for every list, and only the loan lists change |
| LoanCache.RemoveLoanOffer | hooks/mutation/loan.ts:570-580 | every offer list is filtered by the offer's address; nothing else changes |
| LoanCache.RemoveLoanOfferSpec | hooks/mutation/loan.ts:570-580 | per list: it holds data, no offer has the address, every other offer stays, and removing again changes nothing |
| LoanCache.RemoveLoanOfferLeaves | hooks/mutation/loan.ts:570-580 | each cached offer list holds exactly the offers it held before without the address |
| LoanCache.AddToMatching | hooks/mutation/loan.ts:248-262 | groups with the same terms gain the count; the others are unchanged, at the same positions |
| LoanCache.MergeGroupedOffer | hooks/mutation/loan.ts:243-268 | a matching group gains the count with nothing appended; otherwise exactly the new group is appended |
| LoanCache.MergeTwiceCountsTwice | hooks/mutation/loan.ts:243-268 | merging is not idempotent |
| LoanCache.RemoveFromGroups | hooks/mutation/loan.ts:594-613 | the removal never lengthens the list |
| LoanCache.RemoveFromGroupsConcat | hooks/mutation/loan.ts:594-613 | group by group: a matching group with count 1 is dropped, another matching group loses one, any other stays, in order |
| LoanCache.RemoveFromGroupsKeepsOthers | hooks/mutation/loan.ts:594-613 | a list with no matching group is unchanged |
| LoanCache.RemoveFromGroupsPositive | hooks/mutation/loan.ts:602-609 | counts of at least one stay at least one |
| LoanCache.MergeThenRemove | hooks/mutation/loan.ts:243-268 | adding one offer and removing it restores the groups when counts are positive |
| LoanCache.AddThenRemove | hooks/mutation/loan.ts:248-262 | the same when a group with the terms exists |
| LoanCache.AppendThenRemove | hooks/mutation/loan.ts:264-266 | the same when the group was appended |
| LoanCache.RemoveOfferFromGroupedLoanOffers | hooks/mutation/loan.ts:582-617 | every grouped list loses one offer with these terms, with a list lacking data treated as empty; nothing else changes |
| LoanCache.TakeLoan | hooks/mutation/loan.ts:325-330 | every offer list holds exactly its former offers without the address; every grouped list loses one offer with these terms; the loan queries are untouched |
| LoanCache.CloseOffer | hooks/mutation/loan.ts:354-358 | the same guarantees for closing an offer: the offer leaves every offer list, one offer leaves its group, the loan queries are untouched |
| LoanCache.FreeIdsFromBounds | hooks/mutation/loan.ts:149-155 | the reference picks at most `count` ids, all in 0..255 and free, strictly increasing |
| LoanCache.FreeIdsFromComplete | hooks/mutation/loan.ts:149-155 | every free id below the last pick is picked, and every free id when fewer than `count` were picked |
| LoanCache.PickFreeIds | hooks/mutation/loan.ts:149-157 | the loop returns the reference picks |
| LoanCache.PickOfferIds | hooks/mutation/loan.ts:145-158 | at most `count` ids in 0..255, none an existing offer id, strictly increasing, and the smallest free ones |
| LoanCache.FreeIdsSpec | hooks/mutation/loan.ts:145-158 | the reference's bounds, order and completeness from id 0 |
| LoanCache.OfferIds | hooks/mutation/loan.ts:147 | the offer ids, position by position |
| LoanCache.NewLoan | hooks/mutation/loan.ts:83-103 | Listed, outstanding equal to amount, no lender or start date, hex amounts that parse back, the given basis points, one installment with none paid, no token mint, threshold or notice, the collection mint as `collectionAddress`, the collection, and the uri or "" |
| LoanCache.AskLoan | hooks/mutation/loan.ts:105-125 | lists not filtered to another collection get the loan appended, the others are unchanged; a cached single loan is replaced |
| LoanCache.AskLoanTwice | hooks/mutation/loan.ts:120-122 | appending is not idempotent: two successes list the loan twice |
| LoanCache.AskThenRemove | hooks/mutation/loan.ts:105-125 | listing a loan and then removing it from the lists restores each list that did not hold its address |
| LoanCache.NewLoanOffers | hooks/mutation/loan.ts:203-216 | one offer per created (address, id), with the shared terms, the lender, no ltv or threshold, and the collection address and collection |
| LoanCache.SingleOffer | hooks/mutation/loan.ts:203-216 | the single created offer carries its address, id and collection, with hex terms that parse back |
| LoanCache.OfferLoan | hooks/mutation/loan.ts:218-293 | grouped lists not filtered elsewhere merge the new group; offer lists whose filters select the terms get the new offers appended |
| LoanCache.OfferThenTakeGrouped | hooks/mutation/loan.ts:243-270 | offering one loan and then taking it restores each grouped list it merged into |
| LoanCache.OfferThenTakeOffers | hooks/mutation/loan.ts:286-291 | offering one loan and then taking it restores each offer list that lacked its address |
| LoanCache.ApplyPatch | hooks/mutation/loan.ts:626-629 | the supplied fields are overwritten and every other field is kept; an empty patch is the identity |
| LoanCache.UpdateLoan | hooks/mutation/loan.ts:619-632 | a cached loan is patched; an entry without data or an absent one stays so; nothing else changes |
| LoanCache.GiveLoan | hooks/mutation/loan.ts:385-397 | with a wallet: out of every list, and a cached loan becomes Active, lent by the wallet, starting at the rounded current second; without a wallet nothing changes |
| LoanCache.CloseLoan | hooks/mutation/loan.ts:439-447 | out of every list; a cached loan becomes Cancelled with its other fields kept |
| LoanCache.Repossess | hooks/mutation/loan.ts:496-504 | out of every list; a cached loan becomes Defaulted |
| LoanCache.RepayLoan | hooks/mutation/loan.ts:549-559 | a cached loan becomes Repaid with an outstanding of zero; the lists are not patched |

## Left out

- Floating point. The pro-rata rate (`calculateProRataInterestRate`) and its
  product with the amount are computed exactly over the integers and then
  truncated toward zero, as `new BN` truncates. The source multiplies in
  double precision, so the last lamport can differ.
- Utils.RoundedMilliSol: rounds exact thousandths half-up. It ignores the
  `Number.EPSILON` nudge and binary rounding of `sol * 1000`, so it can
  disagree with the source at exact halves that are not representable.
- Utils.FormatAmount: the memo table `amountCache` is not modelled. It only
  returns a string computed earlier by the same function.
- Utils.FormatAmount: amounts that `toNumber` rejects (2^53 and above) are
  not modelled as throwing.
- Utils.FormatDuration: a duration of 2^53 seconds or more, for which
  `toNumber` throws (index.ts:21), is formatted instead of throwing.
- Utils.HasExpired: a `startDate + duration` of 2^53 or more, for which
  `toNumber` throws (index.ts:26), is compared instead of throwing.
- Utils.InterestDue: an elapsed time or amount of 2^53 or more, for which
  `toNumber` throws (index.ts:51, 70), gives a value instead of throwing.
- Utils.AmountOnMaturity: a duration or amount of 2^53 or more, for which
  `toNumber` throws (index.ts:51, 96), gives a value instead of throwing.
- Utils.ProRataInterest: an elapsed time of 2^53 or more, for which
  `toNumber` throws (index.ts:51), gives a value instead of throwing.
- Utils.InterestOnMaturity: a duration or amount of 2^53 or more, for which
  `toNumber` throws (index.ts:51, 96), gives a value instead of throwing.
- Tables.AmountOrder: a difference of amounts of magnitude 2^53 or more,
  for which `toNumber` throws (common.ts:53), is returned instead of
  throwing.
- Tables.SortByDuration: a difference of durations of magnitude 2^53 or
  more, for which `toNumber` throws (common.ts:109), is returned instead of
  throwing.
- Tables.LtvOrder: uses exact real division instead of double arithmetic.
- Utils.ToLowerAscii: folds only ASCII letters. JavaScript's `toLowerCase`
  folds all of Unicode.
- Utils.GetFloorPrice: prices are reals. A zero price is found, and the LTV
  comparator treats it as unusable, as the source does.
- `toMonths`, `formatMonths`, `formatDueDate`, `formatBlockTime`,
  `formatTotalDue`, `formatAmountOnMaturity`, `yieldGenerated`,
  `totalAmount`, `mapSymbolToCollectionTitle` and `wait`: these are float or
  date/timezone formatting, display wrappers of the modelled helpers, or a
  timer.
- The call option's `expiry` and `expiryLongFormat` getters (dayjs date
  formatting) are left out. So are `cost` and `strikePrice`, which are
  `formatAmount` of the two u64 fields (see Utils.FormatAmount).
- CallOptions.FromJson: JSON numbers are taken as integers of any size.
  `new BN` of a non-integer, `new BN` of a number of 2^53 or more (which
  throws, callOption.ts:102, 105-106), and the metadata's `tokenStandard` and `uses` fields are not
  modelled.
- TokenMetadata.Pretty: treated as printing the two keys and passing the
  other fields through. The metadata library's printed form also carries
  the account-kind tag, but `fromJSON` never reads it back (it sets the kind
  to 0, callOption.ts:111), so the tag is not modelled in the JSON form.
- QueryLoan.LoanOf: the `Loan` class and its `pretty()` (loan.ts:62-66) are
  not modelled. The record of the listing's key, account and metadata stands
  for the printed loan.
- `toHexString` is called by the handlers, but its definition is not part
  of this model. It is modelled as lower-case base-16 digits.
- Program-address derivation, `AccountLayout.decode`,
  `Metadata.fromAccountInfo`, the RPC reads and the token-manager fetch are
  function parameters, not models.
- `fetchMultipleLoans` hands the listing records to `fetchMetadataAccounts`
  in place of their mints, so it rejects for any listing. The
  metadata reads that would follow are a per-listing parameter; they are
  reached only in QueryLoan.FetchMultipleLoansByIndex and the corrected
  QueryLoan.FetchMultipleLoans.
- CallOptions.KeyFromJson: follows web3.js 1.3x and later, where
  `new PublicKey(undefined)` throws. Older releases gave the all-zero key
  instead.
- QueryCommon.UnpackOrdersAgreeOnSuccess: assumes the decoder reads only the
  first 165 bytes, as the account layout does; `AccountLayout.decode` itself
  is a parameter.
- The listings program id is a parameter.
- The react-query plumbing is left out: `findAll`, `fetchQuery`, toasts,
  `onError`, and the `invalidateQueries(["loans"])` in the repay handler.
  The cache is given as maps whose keys already match the handler's prefix.
- `setQueryData` on a key with no cached query would create one. Only
  queries already in the cache are patched.
- The ask and offer handlers do nothing without a connected wallet. That
  guard is left to the caller; only the give handler's guard is modelled.
- The offer handler caches the collection under a key holding the
  `toBase58` function instead of its result. This affects only the caching
  of that fetch, which is not modelled.
- The grouped-offer filter compares the key's collection with a PublicKey
  object. This is an abstract predicate parameter (`keyMatches`).
- QueryLoan.SortByAmount: amounts that `toNumber` rejects are not modelled
  as throwing.
- QueryLoan.CombineLoans: its own contract states only the length bound.
  Soundness, completeness and order are the lemmas CombineLoansSound,
  CombineLoansComplete and CombineLoansSorted.
- LoanCache.RemoveFromGroups: its own contract states only the length
  bound. The group-by-group behaviour is in RemoveFromGroupsConcat and the
  lemmas after it.

## Findings

| source | as written | input that shows it | evidently intended | confidence | as-written member | corrected member |
|---|---|---|---|---|---|---|
| common/query/loan.ts:56 | the sorted listing records are passed to `fetchMetadataAccounts`, which calls `mint.toBuffer()` on each (common/query/common.ts:27, 44-46); a record has no `toBuffer` | any non-empty listing set, for instance two listings: the derivation throws a TypeError and the whole fetch rejects | pass `listings.map((l) => l.account.mint)` | not executed; high | QueryLoan.FetchMultipleLoansAsWritten, QueryLoan.MisalignedMetadata | QueryLoan.FetchMultipleLoans |
| common/query/loan.ts:58-59 | once mints are passed, the metadata list has had its nulls dropped by `fetchMetadataAccounts`, but `metadataAccounts[index]` looks it up by the listing's position; this stays hidden behind the rejection above | two sorted listings where only the second has metadata: the first listing is paired with the second's metadata, and the second is dropped | pair each listing with its own metadata and drop those without | not executed; high | QueryLoan.FetchMultipleLoansByIndex, QueryLoan.MisalignedMetadata | QueryLoan.FetchMultipleLoans |
| common/query/common.ts:65-69 | `AccountLayout.decode` runs before the owner and size checks | an account of another owner with empty data throws the decode error instead of `TokenInvalidAccountOwnerError` | check the owner, then the size, then decode (the order of the library function this copy replaces) | not executed; medium | QueryCommon.UnpackTokenAsWritten, QueryCommon.UnpackOrderHidesOwnerError | QueryCommon.UnpackToken |

=== FILE: call_option.dfy ===
/** The `CallOption` entity: an on-chain call-option account (state, premium
    amount, seller, buyer, expiry, strike price, NFT mint, bump), its NFT's
    metadata and the account address, with the role tests, the derived
    getters and the JSON round trip (`pretty` / `fromJSON`). */
module CallOptions {
  import opened Wrappers
  import Keys
  import Utils
  import TokenMetadata

  /** 2^53: `BN.toNumber()` throws for a magnitude this large or larger. */
  const SafeLimit: int := 0x20_0000_0000_0000

  predicate SafeInteger(x: int) {
    -SafeLimit < x < SafeLimit
  }

  /** Anchor decodes the enum state as an object whose single key names the
      variant (`{ listed: {} }`); anything else is `NotAnObject`. */
  datatype RawState = StateObject(keys: seq<string>) | NotAnObject

  /** The decoded account. The key fields are typed as non-null, but the
      getters guard against null, so seller and buyer may be missing. */
  datatype CallOptionData = CallOptionData(
    state: RawState,
    amount: int,
    seller: Option<Keys.PublicKey>,
    buyer: Option<Keys.PublicKey>,
    expiry: int,
    strikePrice: int,
    mint: Keys.PublicKey,
    bump: nat)

  datatype CallOption = CallOption(data: CallOptionData, metadata: TokenMetadata.Metadata, publicKey: Keys.PublicKey)

  /** What the source throws: a method called on a null key, an integer
      `toNumber` cannot represent, or a malformed base58 key. */
  datatype Error = NullKey | UnsafeInteger | InvalidKey(reason: Keys.KeyError)

  /** `bn.toNumber()`. */
  function ToNumber(x: int): (r: Result<int, Error>)
    ensures r.Success? <==> SafeInteger(x)
    ensures r.Success? ==> r.value == x
  {
    if SafeInteger(x) then Success(x) else Failure(UnsafeInteger)
  }

  /** `isBuyer(wallet)`: false without a wallet, else whether the buyer is the
      wallet's key; a null buyer throws. */
  function IsBuyer(c: CallOption, wallet: Option<Keys.PublicKey>): (r: Result<bool, Error>)
    ensures wallet.None? ==> r == Success(false)
    ensures wallet.Some? ==> (r.Failure? <==> c.data.buyer.None?)
    ensures r == Success(true) <==> wallet.Some? && c.data.buyer == Some(wallet.value)
  {
    match wallet
    case None => Success(false)
    case Some(w) =>
      match c.data.buyer
      case None => Failure(NullKey)
      case Some(b) => Success(b == w)
  }

  /** `isSeller(wallet)`: the same test against the seller. */
  function IsSeller(c: CallOption, wallet: Option<Keys.PublicKey>): (r: Result<bool, Error>)
    ensures wallet.None? ==> r == Success(false)
    ensures wallet.Some? ==> (r.Failure? <==> c.data.seller.None?)
    ensures r == Success(true) <==> wallet.Some? && c.data.seller == Some(wallet.value)
  {
    match wallet
    case None => Success(false)
    case Some(w) =>
      match c.data.seller
      case None => Failure(NullKey)
      case Some(s) => Success(s == w)
  }

  /** A wallet is never both buyer and seller of an option whose buyer and
      seller differ. */
  lemma RolesExclusive(c: CallOption, wallet: Option<Keys.PublicKey>)
    requires c.data.buyer != c.data.seller
    ensures !(IsBuyer(c, wallet) == Success(true) && IsSeller(c, wallet) == Success(true))
  {
  }

  /** The `address` getter: the option account's base58 address. */
  function Address(c: CallOption): (s: string)
    ensures Keys.FromBase58(s) == Success(c.publicKey)
  {
    Keys.Base58RoundTrip(c.publicKey);
    Keys.ToBase58(c.publicKey)
  }

  /** `expired`: the current time in seconds is strictly past the expiry. */
  function Expired(c: CallOption, nowMs: int): (r: Result<bool, Error>)
    ensures r.Success? <==> SafeInteger(c.data.expiry)
    ensures r.Success? ==> (r.value <==> nowMs > 1000 * c.data.expiry)
  {
    var expiry :- ToNumber(c.data.expiry);
    Success((nowMs as real) / 1000.0 > expiry as real)
  }

  /** An option expires exactly as a loan of duration zero starting at the
      expiry would. */
  lemma ExpiredAgreesWithHasExpired(c: CallOption, nowMs: int)
    requires SafeInteger(c.data.expiry)
    ensures Expired(c, nowMs) == Success(Utils.HasExpired(c.data.expiry, 0, nowMs))
  {
  }

  /** The `buyer` getter: the buyer's base58 address, or "" without a buyer. */
  function BuyerAddress(c: CallOption): (s: string)
    ensures s == "" <==> c.data.buyer.None?
    ensures c.data.buyer.Some? ==> Keys.FromBase58(s) == Success(c.data.buyer.value)
  {
    match c.data.buyer
    case None => ""
    case Some(b) => Keys.Base58RoundTrip(b); Keys.ToBase58(b)
  }

  /** The `seller` getter: the seller's base58 address, or "" without a seller. */
  function SellerAddress(c: CallOption): (s: string)
    ensures s == "" <==> c.data.seller.None?
    ensures c.data.seller.Some? ==> Keys.FromBase58(s) == Success(c.data.seller.value)
  {
    match c.data.seller
    case None => ""
    case Some(k) => Keys.Base58RoundTrip(k); Keys.ToBase58(k)
  }

  /** `hasBuyer`: the buyer is not the system program (an all-zero key marks
      an option nobody has bought); a null buyer throws. */
  function HasBuyer(c: CallOption): (r: Result<bool, Error>)
    ensures r.Failure? <==> c.data.buyer.None?
    ensures r == Success(true) <==> c.data.buyer.Some? && c.data.buyer.value.value != 0
  {
    match c.data.buyer
    case None => Failure(NullKey)
    case Some(b) => Success(!Utils.IsSystemProgram(b))
  }

  /** `state`: the first key of the state object; undefined when the state is
      not an object or has no key. */
  function State(c: CallOption): (r: Option<string>)
    ensures r.Some? <==> c.data.state.StateObject? && |c.data.state.keys| > 0
    ensures r.Some? ==> r.value == c.data.state.keys[0]
  {
    match c.data.state
    case StateObject(keys) => if |keys| > 0 then Some(keys[0]) else None
    case NotAnObject => None
  }

  /** The JSON form of the account; `state` and `buyer` may be undefined. */
  datatype CallOptionDataPretty = CallOptionDataPretty(
    state: Option<string>,
    amount: int,
    seller: string,
    buyer: Option<string>,
    expiry: int,
    strikePrice: int,
    mint: string,
    bump: nat)

  datatype CallOptionPretty = CallOptionPretty(
    data: CallOptionDataPretty,
    metadata: TokenMetadata.MetadataPretty,
    publicKey: string)

  /** Whether `pretty()` completes: every number is a safe integer and there
      is a seller (whose `toBase58` is called without a null guard). */
  predicate Printable(c: CallOption) {
    SafeInteger(c.data.amount) && c.data.seller.Some? &&
    SafeInteger(c.data.expiry) && SafeInteger(c.data.strikePrice)
  }

  /** `pretty()`: fields evaluated in the order written, so the first one
      that throws decides the error. */
  function Pretty(c: CallOption): (r: Result<CallOptionPretty, Error>)
    ensures r.Success? <==> Printable(c)
    ensures !SafeInteger(c.data.amount) ==> r == Failure(UnsafeInteger)
    ensures SafeInteger(c.data.amount) && c.data.seller.None? ==> r == Failure(NullKey)
    ensures r.Success? ==> r.value.data.state == State(c) && r.value.data.amount == c.data.amount
    ensures r.Success? ==> (r.value.data.buyer.None? <==> c.data.buyer.None?)
  {
    var state := State(c);
    var amount :- ToNumber(c.data.amount);
    var seller :- if c.data.seller.Some? then Success(Keys.ToBase58(c.data.seller.value)) else Failure(NullKey);
    var buyer := if c.data.buyer.Some? then Some(Keys.ToBase58(c.data.buyer.value)) else None;
    var expiry :- ToNumber(c.data.expiry);
    var strikePrice :- ToNumber(c.data.strikePrice);
    var mint := Keys.ToBase58(c.data.mint);
    Success(CallOptionPretty(
      CallOptionDataPretty(state, amount, seller, buyer, expiry, strikePrice, mint, c.data.bump),
      TokenMetadata.Pretty(c.metadata),
      Keys.ToBase58(c.publicKey)))
  }

  /** `new PublicKey(value)` for a JSON field: a string is base58-decoded;
      an undefined value throws, as web3.js 1.3x and later read `value._bn`
      before anything else. */
  function KeyFromJson(value: Option<string>): (r: Result<Keys.PublicKey, Error>)
    ensures value.None? ==> r == Failure(NullKey)
    ensures value.Some? ==> (r.Success? <==> Keys.FromBase58(value.value).Success?)
    ensures value.Some? && r.Success? ==> Success(r.value) == Keys.FromBase58(value.value)
  {
    match value
    case None => Failure(NullKey)
    case Some(s) =>
      match Keys.FromBase58(s)
      case Success(k) => Success(k)
      case Failure(e) => Failure(InvalidKey(e))
  }

  /** `CallOption.fromJSON`: the state becomes a one-key object named by the
      JSON state (the string "undefined" when it is missing); keys are parsed
      from base58; the metadata's account kind becomes 0. */
  function FromJson(p: CallOptionPretty): (r: Result<CallOption, Error>)
    ensures r.Success? ==> r.value.data.state == StateObject([p.data.state.GetOr("undefined")])
    ensures r.Success? ==> r.value.data.amount == p.data.amount && r.value.data.expiry == p.data.expiry
    ensures r.Success? ==> r.value.data.seller.Some? && r.value.data.buyer.Some? && r.value.metadata.key == 0
    ensures p.data.buyer.None? ==> r.Failure?
  {
    var seller :- KeyFromJson(Some(p.data.seller));
    var buyer :- KeyFromJson(p.data.buyer);
    var mint :- KeyFromJson(Some(p.data.mint));
    var metadata :- match TokenMetadata.FromPretty(p.metadata)
      case Success(m) => Success(m)
      case Failure(e) => Failure(InvalidKey(e));
    var publicKey :- KeyFromJson(Some(p.publicKey));
    Success(CallOption(
      CallOptionData(
        StateObject([p.data.state.GetOr("undefined")]),
        p.data.amount, Some(seller), Some(buyer), p.data.expiry, p.data.strikePrice, mint, p.data.bump),
      metadata,
      publicKey))
  }

  /** An option without a buyer prints, but does not read back: its
      undefined buyer throws in `fromJSON`. */
  lemma PrettyWithoutBuyerThrows(c: CallOption)
    requires Printable(c) && c.data.buyer.None?
    ensures Pretty(c).Success? && FromJson(Pretty(c).value).Failure?
  {
  }

  /** `fromJSON(pretty(c))` of an option with a buyer gives back the same
      state name (or "undefined" when there was none), amounts, seller,
      buyer, expiry, strike price, mint, bump and address; the metadata
      differs only in its account kind. */
  lemma {:induction false} PrettyRoundTrip(c: CallOption)
    requires Printable(c)
    ensures Pretty(c).Success?
    ensures c.data.buyer.Some? ==> FromJson(Pretty(c).value).Success?
    ensures c.data.buyer.Some? ==> var d := FromJson(Pretty(c).value).value;
      && State(d) == Some(State(c).GetOr("undefined"))
      && d.data.amount == c.data.amount
      && d.data.seller == c.data.seller
      && d.data.buyer == c.data.buyer
      && d.data.expiry == c.data.expiry
      && d.data.strikePrice == c.data.strikePrice
      && d.data.mint == c.data.mint
      && d.data.bump == c.data.bump
      && d.metadata == c.metadata.(key := 0)
      && d.publicKey == c.publicKey
  {
    Keys.Base58RoundTrip(c.data.seller.value);
    Keys.Base58RoundTrip(c.data.mint);
    Keys.Base58RoundTrip(c.publicKey);
    if c.data.buyer.Some? {
      Keys.Base58RoundTrip(c.data.buyer.value);
    }
    TokenMetadata.PrettyRoundTrip(c.metadata);
  }

  /** An option whose state names a variant and which has a buyer is
      reproduced exactly, apart from the metadata's account kind. */
  lemma PrettyRoundTripExact(c: CallOption)
    requires Printable(c) && c.data.buyer.Some?
    requires c.data.state.StateObject? && |c.data.state.keys| == 1
    ensures Pretty(c).Success?
    ensures FromJson(Pretty(c).value) == Success(c.(metadata := c.metadata.(key := 0)))
  {
    PrettyRoundTrip(c);
    assert c.data.state.keys == [c.data.state.keys[0]];
  }
}

=== FILE: digits.dfy ===
/** Positional notation: digits of a natural number in a base, the character
    alphabets the source prints numbers and keys with (decimal, lower-case
    hexadecimal, base58), and the parsers that read them back. */
module Digits {
  import opened Wrappers

  function Pow(b: nat, e: nat): nat {
    if e == 0 then 1 else Pow(b, e - 1) * b
  }

  lemma {:induction false} PowPositive(b: nat, e: nat)
    requires b >= 1
    ensures Pow(b, e) >= 1
  {
    if e > 0 {
      PowPositive(b, e - 1);
      assert b * Pow(b, e - 1) >= Pow(b, e - 1);
    }
  }

  lemma {:induction false} PowMonotone(b: nat, e1: nat, e2: nat)
    requires b >= 1 && e1 <= e2
    ensures Pow(b, e1) <= Pow(b, e2)
  {
    if e1 < e2 {
      PowMonotone(b, e1, e2 - 1);
      MulMonotone(1, b, Pow(b, e2 - 1));
    }
  }

  lemma {:induction false} PowAdd(b: nat, e1: nat, e2: nat)
    ensures Pow(b, e1 + e2) == Pow(b, e1) * Pow(b, e2)
    decreases e2
  {
    if e2 > 0 {
      PowAdd(b, e1, e2 - 1);
      var p, q := Pow(b, e1), Pow(b, e2 - 1);
      assert Pow(b, e1 + e2) == (p * q) * b;
      assert (p * q) * b == p * (q * b);
    }
  }

  ghost predicate IsDigits(ds: seq<nat>, base: nat) {
    forall i :: 0 <= i < |ds| ==> ds[i] < base
  }

  /** Most-significant-first digits of `n`; empty for zero and never with a
      leading zero otherwise. */
  function ToDigits(n: nat, base: nat): (ds: seq<nat>)
    requires base >= 2
    ensures IsDigits(ds, base)
    ensures n == 0 <==> ds == []
    ensures ds != [] ==> ds[0] != 0
    decreases n
  {
    if n == 0 then [] else ToDigits(n / base, base) + [n % base]
  }

  /** The value a most-significant-first digit sequence denotes. */
  function FromDigits(ds: seq<nat>, base: nat): nat {
    if ds == [] then 0 else FromDigits(ds[..|ds| - 1], base) * base + ds[|ds| - 1]
  }

  lemma DivMod(n: nat, base: nat)
    requires base >= 2
    ensures n == (n / base) * base + n % base
  {
  }

  lemma DivShrinks(n: nat, base: nat)
    requires n > 0 && base >= 2
    ensures n / base < n
  {
    DivMod(n, base);
    var q := n / base;
    if q > 0 {
      assert q * base == q + q * (base - 1);
      assert q * (base - 1) >= 1;
    }
  }

  lemma MulMonotone(x: nat, y: nat, b: nat)
    requires x <= y
    ensures x * b <= y * b
  {
    assert y * b == x * b + (y - x) * b;
  }

  lemma {:induction false} FromToDigits(n: nat, base: nat)
    requires base >= 2
    ensures FromDigits(ToDigits(n, base), base) == n
    decreases n
  {
    if n != 0 {
      var q, r := n / base, n % base;
      var t := ToDigits(q, base);
      assert ToDigits(n, base) == t + [r];
      FromDigitsSnoc(t, r, base);
      DivShrinks(n, base);
      FromToDigits(q, base);
      DivMod(n, base);
    }
  }

  /** Appending a digit multiplies by the base and adds it. */
  lemma FromDigitsSnoc(init: seq<nat>, d: nat, base: nat)
    ensures FromDigits(init + [d], base) == FromDigits(init, base) * base + d
  {
    assert (init + [d])[..|init|] == init;
  }

  lemma MulAtLeast(k: int, b: int)
    requires k >= 1 && b >= 0
    ensures k * b >= b
  {
    assert k * b == (k - 1) * b + b;
  }

  lemma QuotientOfSnoc(m: nat, d: nat, base: nat)
    requires base >= 2 && d < base
    ensures (m * base + d) / base == m && (m * base + d) % base == d
  {
    var n := m * base + d;
    var q, r := n / base, n % base;
    DivMod(n, base);
    assert (m - q) * base == r - d;
    if m > q {
      MulAtLeast(m - q, base);
    } else if m < q {
      assert (q - m) * base == d - r;
      MulAtLeast(q - m, base);
    }
  }

  /** The digits of `m * base + d` are those of `m` followed by `d`. */
  lemma ToDigitsSnoc(m: nat, d: nat, base: nat)
    requires base >= 2 && d < base && (m > 0 || d > 0)
    ensures ToDigits(m * base + d, base) == ToDigits(m, base) + [d]
  {
    QuotientOfSnoc(m, d, base);
    if m > 0 {
      MulAtLeast(m, base);
    }
    assert m * base + d != 0;
  }

  lemma {:induction false} ToFromDigits(ds: seq<nat>, base: nat)
    requires base >= 2 && IsDigits(ds, base)
    requires ds != [] ==> ds[0] != 0
    ensures ToDigits(FromDigits(ds, base), base) == ds
    decreases |ds|
  {
    if ds != [] {
      var init, d := ds[..|ds| - 1], ds[|ds| - 1];
      assert ds == init + [d];
      FromDigitsSnoc(init, d, base);
      if init == [] {
        ToDigitsSnoc(0, d, base);
      } else {
        assert init[0] == ds[0];
        ToFromDigits(init, base);
        ToDigitsSnoc(FromDigits(init, base), d, base);
      }
    }
  }

  function Zeros(k: nat): (z: seq<nat>)
    ensures |z| == k && forall i :: 0 <= i < k ==> z[i] == 0
  {
    seq(k, i => 0)
  }

  /** Leading zero digits do not change the value. */
  lemma {:induction false} FromDigitsLeadingZeros(k: nat, ds: seq<nat>, base: nat)
    ensures FromDigits(Zeros(k) + ds, base) == FromDigits(ds, base)
    decreases |ds|, k
  {
    if ds == [] {
      assert Zeros(k) + ds == Zeros(k);
      if k > 0 {
        assert Zeros(k)[..k - 1] == Zeros(k - 1);
        FromDigitsLeadingZeros(k - 1, [], base);
        assert Zeros(k - 1) + [] == Zeros(k - 1);
      }
    } else {
      var all := Zeros(k) + ds;
      assert all[..|all| - 1] == Zeros(k) + ds[..|ds| - 1];
      FromDigitsLeadingZeros(k, ds[..|ds| - 1], base);
    }
  }

  /** A number with `w` or fewer digits is below base^w, and one with more is not. */
  lemma UpperStep(q: nat, r: nat, b: nat, p: nat)
    requires q < p && r < b
    ensures q * b + r < p * b
  {
    MulMonotone(q + 1, p, b);
    assert (q + 1) * b == q * b + b;
  }

  lemma {:induction false} DigitsBounds(n: nat, base: nat)
    requires base >= 2
    ensures n < Pow(base, |ToDigits(n, base)|)
    ensures n > 0 ==> Pow(base, |ToDigits(n, base)| - 1) <= n
    decreases n
  {
    if n > 0 {
      var q, r := n / base, n % base;
      var len := |ToDigits(q, base)|;
      DivShrinks(n, base);
      DigitsBounds(q, base);
      DivMod(n, base);
      assert |ToDigits(n, base)| == len + 1;
      UpperStep(q, r, base, Pow(base, len));
      if q > 0 {
        MulMonotone(Pow(base, len - 1), q, base);
      }
    }
  }

  lemma DigitsWidth(n: nat, base: nat, w: nat)
    requires base >= 2
    ensures |ToDigits(n, base)| <= w <==> n < Pow(base, w)
  {
    var len := |ToDigits(n, base)|;
    DigitsBounds(n, base);
    if len <= w {
      PowMonotone(base, len, w);
    } else {
      PowMonotone(base, w, len - 1);
    }
  }

  /** Exactly `w` digits, zero-padded on the left (a fixed-width buffer). */
  function ToFixed(n: nat, base: nat, w: nat): (ds: seq<nat>)
    requires base >= 2 && n < Pow(base, w)
    ensures |ds| == w && IsDigits(ds, base)
    ensures FromDigits(ds, base) == n
  {
    DigitsWidth(n, base, w);
    var t := ToDigits(n, base);
    FromDigitsLeadingZeros(w - |t|, t, base);
    FromToDigits(n, base);
    Zeros(w - |t|) + t
  }

  /** The three alphabets the source prints numbers with. */
  datatype Alphabet = Decimal | Hex | Base58

  function Base(a: Alphabet): nat {
    match a
    case Decimal => 10
    case Hex => 16
    case Base58 => 58
  }

  /** The character of digit `d`: `0-9`; `0-9a-f`; and for base58 the digits
      `1-9`, the upper-case letters without `I` and `O`, and the lower-case
      letters without `l`. */
  function Char(a: Alphabet, d: nat): char
    requires d < Base(a)
  {
    match a
    case Decimal => (48 + d) as char
    case Hex => if d < 10 then (48 + d) as char else (97 + d - 10) as char
    case Base58 =>
      if d < 9 then (49 + d) as char          // '1'..'9'
      else if d < 17 then (65 + d - 9) as char    // 'A'..'H'
      else if d < 22 then (74 + d - 17) as char   // 'J'..'N'
      else if d < 33 then (80 + d - 22) as char   // 'P'..'Z'
      else if d < 44 then (97 + d - 33) as char   // 'a'..'k'
      else (109 + d - 44) as char                 // 'm'..'z'
  }

  /** The digit a character stands for, or None when it is not in the alphabet. */
  function Value(a: Alphabet, c: char): (r: Option<nat>)
    ensures r.Some? ==> r.value < Base(a)
  {
    var k := c as int;
    match a
    case Decimal => if 48 <= k <= 57 then Some(k - 48) else None
    case Hex =>
      if 48 <= k <= 57 then Some(k - 48)
      else if 97 <= k <= 102 then Some(k - 97 + 10)
      else None
    case Base58 =>
      if 49 <= k <= 57 then Some(k - 49)
      else if 65 <= k <= 72 then Some(k - 65 + 9)
      else if 74 <= k <= 78 then Some(k - 74 + 17)
      else if 80 <= k <= 90 then Some(k - 80 + 22)
      else if 97 <= k <= 107 then Some(k - 97 + 33)
      else if 109 <= k <= 122 then Some(k - 109 + 44)
      else None
  }

  /** Char and Value are inverse: every digit reads back, and every character
      that reads as a digit is that digit's character. */
  lemma CharValue(a: Alphabet, d: nat)
    requires d < Base(a)
    ensures Value(a, Char(a, d)) == Some(d)
  {
  }

  lemma ValueChar(a: Alphabet, c: char)
    requires Value(a, c).Some?
    ensures Char(a, Value(a, c).value) == c
  {
  }

  /** Base58 digit 0 is the character '1'. */
  lemma Base58Zero()
    ensures Char(Base58, 0) == '1'
  {
  }

  function Spell(ds: seq<nat>, a: Alphabet): (s: string)
    requires IsDigits(ds, Base(a))
    ensures |s| == |ds|
  {
    seq(|ds|, i requires 0 <= i < |ds| => Char(a, ds[i]))
  }

  /** Reads every character as a digit; None if any is outside the alphabet. */
  function Read(s: string, a: Alphabet): (r: Option<seq<nat>>)
    ensures r.Some? <==> forall i :: 0 <= i < |s| ==> Value(a, s[i]).Some?
    ensures r.Some? ==> |r.value| == |s| && forall i :: 0 <= i < |s| ==> Value(a, s[i]) == Some(r.value[i])
  {
    if s == [] then Some([])
    else
      match Value(a, s[0])
      case None => None
      case Some(d) =>
        match Read(s[1..], a)
        case None =>
          assert !forall i :: 0 <= i < |s| - 1 ==> Value(a, s[1..][i]).Some?;
          None
        case Some(rest) => Some([d] + rest)
  }

  lemma ReadSpell(ds: seq<nat>, a: Alphabet)
    requires IsDigits(ds, Base(a))
    ensures Read(Spell(ds, a), a) == Some(ds)
  {
    var s := Spell(ds, a);
    forall i | 0 <= i < |s|
      ensures Value(a, s[i]) == Some(ds[i])
    {
      CharValue(a, ds[i]);
    }
    var r := Read(s, a);
    assert r.Some?;
    assert r.value == ds;
  }

  /** How the source prints a non-negative integer in the alphabet's base
      (`toString()`, `toString(16)`): "0" for zero, no leading zeros otherwise. */
  function Render(n: nat, a: Alphabet): (s: string)
    ensures |s| >= 1
    ensures forall i :: 0 <= i < |s| ==> Value(a, s[i]).Some?
  {
    if n == 0 then
      CharValue(a, 0);
      [Char(a, 0)]
    else
      ReadSpell(ToDigits(n, Base(a)), a);
      Spell(ToDigits(n, Base(a)), a)
  }

  /** Reads a non-empty digit string back into its value. */
  function Parse(s: string, a: Alphabet): Option<nat> {
    if s == [] then None
    else
      match Read(s, a)
      case None => None
      case Some(ds) => Some(FromDigits(ds, Base(a)))
  }

  lemma ParseRender(n: nat, a: Alphabet)
    ensures Parse(Render(n, a), a) == Some(n)
  {
    if n == 0 {
      CharValue(a, 0);
      var r := Read([Char(a, 0)], a);
      assert Value(a, [Char(a, 0)][0]) == Some(0);
      assert r.Some? && r.value == [0];
      assert [0][..0] == [];
      assert FromDigits([0], Base(a)) == 0;
      assert Render(0, a) == [Char(a, 0)];
    } else {
      ReadSpell(ToDigits(n, Base(a)), a);
      FromToDigits(n, Base(a));
    }
  }

  /** Decimal rendering of a (possibly negative) integer, as a template string
      prints a JavaScript integer. */
  function IntToString(i: int): string {
    if i < 0 then "-" + Render(-i, Decimal) else Render(i, Decimal)
  }

  function ParseInt(s: string): Option<int> {
    if |s| > 0 && s[0] == '-' then
      match Parse(s[1..], Decimal)
      case None => None
      case Some(n) => Some(-(n as int))
    else
      match Parse(s, Decimal)
      case None => None
      case Some(n) => Some(n)
  }

  lemma ParseIntToString(i: int)
    ensures ParseInt(IntToString(i)) == Some(i)
  {
    if i < 0 {
      var n: nat := -i;
      assert IntToString(i) == "-" + Render(n, Decimal);
      ParseIntNegative(n);
    } else {
      var n: nat := i;
      assert IntToString(i) == Render(n, Decimal);
      ParseIntNonNegative(n);
    }
  }

  lemma ParseIntNegative(n: nat)
    ensures ParseInt("-" + Render(n, Decimal)) == Some(-(n as int))
  {
    var t := Render(n, Decimal);
    ParseRender(n, Decimal);
    assert ("-" + t)[1..] == t;
  }

  lemma ParseIntNonNegative(n: nat)
    ensures ParseInt(Render(n, Decimal)) == Some(n)
  {
    var t := Render(n, Decimal);
    ParseRender(n, Decimal);
    assert Value(Decimal, t[0]).Some?;
    assert Value(Decimal, '-').None?;
    assert t[0] != '-';
  }

}

=== FILE: keys.dfy ===
/** Solana public keys as the dApp handles them: 32 bytes that `equals`
    compares by value, `toBuffer` writes big-endian, `toBase58` prints with the
    Bitcoin base58 alphabet and `new PublicKey(string)` reads back. */
module Keys {
  import opened Wrappers
  import opened Digits

  type Byte = b: nat | b < 256

  /** 2^256: one more than the largest 32-byte key. */
  const KeySpace: nat := 0x1_0000_0000_0000_0000_0000_0000_0000_0000_0000_0000_0000_0000_0000_0000_0000_0000

  type U256 = n: nat | n < KeySpace

  /** A key is identified by the big-endian value of its 32 bytes. */
  datatype PublicKey = PublicKey(value: U256)

  /** `SystemProgram.programId`, the all-zero key. */
  const SystemProgramId: PublicKey := PublicKey(0)

  lemma KeySpaceIsPow()
    ensures Pow(256, 32) == KeySpace
  {
    assert Pow(256, 4) == 0x1_0000_0000;
    PowAdd(256, 4, 4);
    PowAdd(256, 8, 8);
    PowAdd(256, 16, 16);
  }

  /** `toBuffer()`: exactly 32 bytes, most significant first. */
  function ToBuffer(k: PublicKey): (bytes: seq<Byte>)
    ensures |bytes| == 32
    ensures FromDigits(bytes, 256) == k.value
  {
    KeySpaceIsPow();
    var ds := ToFixed(k.value, 256, 32);
    var bytes := seq(32, i requires 0 <= i < 32 => ds[i] as Byte);
    assert bytes == ds;
    bytes
  }

  /** Different keys have different buffers, so seeds built from keys
      identify the keys. */
  lemma ToBufferInjective(a: PublicKey, b: PublicKey)
    ensures ToBuffer(a) == ToBuffer(b) <==> a == b
  {
  }

  /** The bytes of an ASCII seed literal such as `Buffer.from("loan")`. */
  function AsciiBytes(s: string): (bytes: seq<Byte>)
    requires forall i :: 0 <= i < |s| ==> s[i] as int < 128
    ensures |bytes| == |s|
  {
    seq(|s|, i requires 0 <= i < |s| => s[i] as int as Byte)
  }

  /** Number of zero bytes `toBuffer` puts in front of the key's value. */
  function LeadingZeroBytes(k: PublicKey): (z: nat)
    ensures z + |ToDigits(k.value, 256)| == 32
  {
    KeySpaceIsPow();
    DigitsWidth(k.value, 256, 32);
    32 - |ToDigits(k.value, 256)|
  }

  function Ones(z: nat): (s: string)
    ensures |s| == z && forall i :: 0 <= i < z ==> s[i] == '1'
  {
    seq(z, i => '1')
  }

  /** `toBase58()`: one '1' per leading zero byte, then the value's base58
      digits; never empty, since a zero key has 32 leading zero bytes. */
  function ToBase58(k: PublicKey): (s: string)
    ensures |s| >= 1
  {
    Ones(LeadingZeroBytes(k)) + Spell(ToDigits(k.value, 58), Base58)
  }

  function LeadingOnes(s: string): (n: nat)
    ensures n <= |s|
  {
    if s == [] || s[0] != '1' then 0 else 1 + LeadingOnes(s[1..])
  }

  datatype KeyError = NonBase58Character | InvalidPublicKeyInput

  /** `new PublicKey(s)`: base58-decode (each leading '1' is a zero byte) and
      insist on exactly 32 bytes. */
  function FromBase58(s: string): (r: Result<PublicKey, KeyError>)
    ensures r.Failure? <==> (Read(s, Base58).None? || LeadingOnes(s) + |ToDigits(FromDigits(Read(s, Base58).value, 58), 256)| != 32)
  {
    match Read(s, Base58)
    case None => Failure(NonBase58Character)
    case Some(ds) =>
      var v := FromDigits(ds, 58);
      if LeadingOnes(s) + |ToDigits(v, 256)| == 32 then
        KeySpaceIsPow();
        DigitsWidth(v, 256, 32);
        Success(PublicKey(v))
      else
        Failure(InvalidPublicKeyInput)
  }

  lemma {:induction false} LeadingOnesOfPrefix(z: nat, t: string)
    requires t == [] || t[0] != '1'
    ensures LeadingOnes(Ones(z) + t) == z
  {
    if z > 0 {
      assert (Ones(z) + t)[1..] == Ones(z - 1) + t;
      LeadingOnesOfPrefix(z - 1, t);
    } else {
      assert Ones(0) + t == t;
    }
  }

  /** The leading '1's are base58 zero digits. */
  lemma OnesSpell(z: nat, ds: seq<nat>)
    requires IsDigits(ds, 58)
    ensures IsDigits(Zeros(z) + ds, 58)
    ensures Ones(z) + Spell(ds, Base58) == Spell(Zeros(z) + ds, Base58)
  {
    Base58Zero();
    var all := Zeros(z) + ds;
    assert forall i :: 0 <= i < |all| ==> all[i] < 58 by {
      forall i | 0 <= i < |all| ensures all[i] < 58 {
        if i >= z {
          assert all[i] == ds[i - z];
        }
      }
    }
  }

  /** A printed key starts with exactly one '1' per leading zero byte. */
  lemma LeadingOnesOfKey(k: PublicKey)
    ensures LeadingOnes(ToBase58(k)) == LeadingZeroBytes(k)
  {
    var ds := ToDigits(k.value, 58);
    var t := Spell(ds, Base58);
    if t != [] {
      CharValue(Base58, ds[0]);
      Base58Zero();
      CharValue(Base58, 0);
      assert t[0] == Char(Base58, ds[0]);
    }
    LeadingOnesOfPrefix(LeadingZeroBytes(k), t);
  }

  /** Printing a key and reading it back gives the same key. */
  lemma Base58RoundTrip(k: PublicKey)
    ensures FromBase58(ToBase58(k)) == Success(k)
  {
    var z := LeadingZeroBytes(k);
    var ds := ToDigits(k.value, 58);
    OnesSpell(z, ds);
    ReadSpell(Zeros(z) + ds, Base58);
    assert Read(ToBase58(k), Base58) == Some(Zeros(z) + ds);
    FromDigitsLeadingZeros(z, ds, 58);
    FromToDigits(k.value, 58);
    LeadingOnesOfKey(k);
  }

  /** Distinct keys print as distinct strings, so comparing printed keys (as
      the cache does with addresses) is comparing keys. */
  lemma Base58Injective(a: PublicKey, b: PublicKey)
    ensures ToBase58(a) == ToBase58(b) <==> a == b
  {
    if ToBase58(a) == ToBase58(b) {
      Base58RoundTrip(a);
      Base58RoundTrip(b);
    }
  }
}

=== FILE: loan_cache.dfy ===
/** The optimistic cache updates the loan mutations make once a transaction
    succeeds. The query cache is four maps from query key to cached data
    (`undefined` while a query has no data): loan lists under "loans", single
    loans under ["loan", address], grouped offers under
    ["loan_offers", "grouped", …] and offer lists under
    ["loan_offers", "all", …]. Every patch is a pure function from cache to
    cache; the addresses the handlers derive, the fetched collection and
    metadata, the wallet key and the clock are parameters. */
module LoanCache {
  import opened Wrappers
  import opened Digits

  // ---------------------------------------------------------------------------
  // Records

  /** The database's loan state (five variants, unlike the on-chain three). */
  datatype LoanState = Listed | Active | Repaid | Cancelled | Defaulted

  /** `CollectionJson`: the fields the patches read or copy. */
  datatype CollectionJson = CollectionJson(address: string, mint: string, loanBasisPoints: int)

  /** `LoanJson`: u64 quantities are lower-case hex strings. */
  datatype LoanJson = LoanJson(
    address: string,
    amount: string,
    outstanding: string,
    basisPoints: int,
    creatorBasisPoints: int,
    duration: string,
    state: LoanState,
    borrower: string,
    mint: string,
    collectionAddress: string,
    installments: int,
    currentInstallment: int,
    uri: string,
    tokenMint: Option<string>,
    threshold: Option<int>,
    noticeIssued: Option<string>,
    startDate: Option<string>,
    lender: Option<string>,
    collection: CollectionJson)

  datatype LoanOfferJson = LoanOfferJson(
    address: string,
    offerId: int,
    amount: string,
    duration: string,
    lender: string,
    basisPoints: int,
    ltv: Option<int>,
    threshold: Option<int>,
    collectionAddress: string,
    collection: CollectionJson)

  /** `GroupedLoanOfferJson`: the number of open offers with the same terms
      in the same collection. */
  datatype GroupedOffer = GroupedOffer(count: int, amount: string, duration: string, basisPoints: int, collection: CollectionJson)

  /** `utils.toHexString`: lower-case base-16 digits. */
  function ToHexString(n: nat): (s: string)
    ensures Parse(s, Hex) == Some(n)
  {
    ParseRender(n, Hex);
    Render(n, Hex)
  }

  // ---------------------------------------------------------------------------
  // Query keys and the cache

  /** A property of a key object: absent, present but undefined, or a value. */
  datatype Prop = Missing | Undefined | Value(text: string)

  /** The key component the patches inspect: nothing (or null), a scalar, or
      an object whose `collection` property may be set. */
  datatype KeyArg = NoArg | Scalar(text: string) | Object(collection: Prop)

  /** A "loans" or grouped-offers key: the inspected component and the rest. */
  datatype QueryKey = QueryKey(arg: KeyArg, rest: seq<string>)

  /** `LoanOfferFilters`: the third component of an offers key. */
  datatype OfferFilters = OfferFilters(
    collections: Option<seq<string>>,
    amount: Option<string>,
    duration: Option<string>,
    basisPoints: Option<int>)

  datatype OffersKey = OffersKey(filters: Option<OfferFilters>, rest: seq<string>)

  datatype Cache = Cache(
    loans: map<QueryKey, Option<seq<LoanJson>>>,
    loan: map<string, Option<LoanJson>>,
    grouped: map<QueryKey, Option<seq<GroupedOffer>>>,
    offers: map<OffersKey, Option<seq<LoanOfferJson>>>)

  // ---------------------------------------------------------------------------
  // Removing by address

  /** `list.filter(x => x.address !== address)`. */
  function Without<T>(xs: seq<T>, addressOf: T -> string, address: string): (r: seq<T>)
    ensures |r| <= |xs|
    ensures forall i :: 0 <= i < |r| ==> addressOf(r[i]) != address && r[i] in xs
    ensures forall i :: 0 <= i < |xs| && addressOf(xs[i]) != address ==> xs[i] in r
  {
    if xs == [] then []
    else
      var rest := Without(xs[1..], addressOf, address);
      assert forall i :: 0 <= i < |rest| ==> rest[i] in xs by {
        forall i | 0 <= i < |rest| ensures rest[i] in xs {
          assert rest[i] in xs[1..];
        }
      }
      assert forall i :: 1 <= i < |xs| ==> xs[i] == xs[1..][i - 1];
      if addressOf(xs[0]) != address then [xs[0]] + rest else rest
  }

  /** Filtering distributes over concatenation, so the kept entries keep
      their relative order. */
  lemma {:induction false} WithoutConcat<T>(xs: seq<T>, ys: seq<T>, addressOf: T -> string, address: string)
    ensures Without(xs + ys, addressOf, address) == Without(xs, addressOf, address) + Without(ys, addressOf, address)
  {
    if xs == [] {
      assert xs + ys == ys;
    } else {
      assert (xs + ys)[1..] == xs[1..] + ys;
      WithoutConcat(xs[1..], ys, addressOf, address);
    }
  }

  /** Removing twice is removing once. */
  lemma {:induction false} WithoutIdempotent<T>(xs: seq<T>, addressOf: T -> string, address: string)
    ensures Without(Without(xs, addressOf, address), addressOf, address) == Without(xs, addressOf, address)
  {
    if xs != [] {
      WithoutIdempotent(xs[1..], addressOf, address);
    }
  }

  /** A list without the address is left as it is. */
  lemma {:induction false} WithoutAbsent<T>(xs: seq<T>, addressOf: T -> string, address: string)
    requires forall i :: 0 <= i < |xs| ==> addressOf(xs[i]) != address
    ensures Without(xs, addressOf, address) == xs
  {
    if xs != [] {
      WithoutAbsent(xs[1..], addressOf, address);
    }
  }

  function LoanAddress(l: LoanJson): string { l.address }
  function OfferAddress(o: LoanOfferJson): string { o.address }

  /** `removeLoanFromList(key)`: every cached loan list loses the loans with
      that address; a list with no data becomes empty. */
  function RemoveLoanFromList(cache: Cache, address: string): (r: Cache)
    ensures r.loans.Keys == cache.loans.Keys
    ensures forall k :: k in r.loans ==> r.loans[k] == Some(Without(cache.loans[k].GetOr([]), LoanAddress, address))
    ensures r.loan == cache.loan && r.grouped == cache.grouped && r.offers == cache.offers
  {
    cache.(loans := map k | k in cache.loans :: Some(Without(cache.loans[k].GetOr([]), LoanAddress, address)))
  }

  /** After removal a cached list holds no loan with the address, keeps
      every other loan, and removing again changes nothing. */
  lemma RemoveLoanFromListSpec(cache: Cache, address: string, k: QueryKey)
    requires k in cache.loans
    ensures var r := RemoveLoanFromList(cache, address);
      && r.loans[k].Some?
      && (forall l :: l in r.loans[k].value ==> l.address != address)
      && (forall l :: l in cache.loans[k].GetOr([]) && l.address != address ==> l in r.loans[k].value)
      && RemoveLoanFromList(r, address).loans[k] == r.loans[k]
  {
    var xs := cache.loans[k].GetOr([]);
    WithoutIdempotent(xs, LoanAddress, address);
    forall l | l in xs && l.address != address
      ensures l in Without(xs, LoanAddress, address)
    {
      var i :| 0 <= i < |xs| && xs[i] == l;
    }
  }

  /** `removeLoanOffer(offer)`: every cached offer list loses the offers with
      the offer's address. */
  function RemoveLoanOffer(cache: Cache, offer: LoanOfferJson): (r: Cache)
    ensures r.offers.Keys == cache.offers.Keys
    ensures forall k :: k in r.offers ==> r.offers[k] == Some(Without(cache.offers[k].GetOr([]), OfferAddress, offer.address))
    ensures r.loans == cache.loans && r.loan == cache.loan && r.grouped == cache.grouped
  {
    cache.(offers := map k | k in cache.offers :: Some(Without(cache.offers[k].GetOr([]), OfferAddress, offer.address)))
  }

  /** After removal a cached offer list holds no offer with the address,
      keeps every other offer, and removing again changes nothing. */
  lemma RemoveLoanOfferSpec(cache: Cache, offer: LoanOfferJson, k: OffersKey)
    requires k in cache.offers
    ensures var r := RemoveLoanOffer(cache, offer);
      && r.offers[k].Some?
      && (forall o :: o in r.offers[k].value ==> o.address != offer.address)
      && (forall o :: o in cache.offers[k].GetOr([]) && o.address != offer.address ==> o in r.offers[k].value)
      && RemoveLoanOffer(r, offer).offers[k] == r.offers[k]
  {
    var xs := cache.offers[k].GetOr([]);
    WithoutIdempotent(xs, OfferAddress, offer.address);
    forall o | o in xs && o.address != offer.address
      ensures o in Without(xs, OfferAddress, offer.address)
    {
      var i :| 0 <= i < |xs| && xs[i] == o;
    }
  }

  // ---------------------------------------------------------------------------
  // Grouped offers

  /** Whether a group has the given terms: amount, duration, basis points
      and collection address. */
  predicate HasTerms(g: GroupedOffer, amount: string, duration: string, basisPoints: int, collectionAddress: string) {
    g.amount == amount && g.duration == duration && g.basisPoints == basisPoints && g.collection.address == collectionAddress
  }

  predicate SameTerms(g: GroupedOffer, h: GroupedOffer) {
    HasTerms(g, h.amount, h.duration, h.basisPoints, h.collection.address)
  }

  /** The `map` step of the grouped-offer merge: every group with the new
      group's terms gains `added` offers. */
  function AddToMatching(groups: seq<GroupedOffer>, group: GroupedOffer, added: int): (r: seq<GroupedOffer>)
    ensures |r| == |groups|
    ensures forall i :: 0 <= i < |groups| ==>
      r[i] == if SameTerms(groups[i], group) then groups[i].(count := groups[i].count + added) else groups[i]
  {
    seq(|groups|, i requires 0 <= i < |groups| =>
      if SameTerms(groups[i], group) then groups[i].(count := groups[i].count + added) else groups[i])
  }

  /** The grouped-offer update of `offerLoan`: groups with the same terms
      grow by the number of new offers; if none has them, the new group is
      appended. */
  function MergeGroupedOffer(groups: seq<GroupedOffer>, group: GroupedOffer, added: int): (r: seq<GroupedOffer>)
    ensures (exists i :: 0 <= i < |groups| && SameTerms(groups[i], group)) ==> r == AddToMatching(groups, group, added)
    ensures (forall i :: 0 <= i < |groups| ==> !SameTerms(groups[i], group)) ==> r == groups + [group]
  {
    var updated := AddToMatching(groups, group, added);
    if exists i :: 0 <= i < |groups| && SameTerms(groups[i], group) then updated
    else
      assert updated == groups;
      updated + [group]
  }

  /** Merging is not idempotent: merging the same new offers twice counts
      them twice. */
  lemma MergeTwiceCountsTwice(group: GroupedOffer, added: int)
    requires added != 0
    ensures MergeGroupedOffer(MergeGroupedOffer([], group, added), group, added) != MergeGroupedOffer([], group, added)
  {
    var once := MergeGroupedOffer([], group, added);
    assert once == [group];
    assert SameTerms(once[0], group);
    var twice := MergeGroupedOffer(once, group, added);
    assert twice[0].count == group.count + added;
  }

  /** `removeOfferFromGroupedLoanOffers` on one list: a group with
      the offer's terms and a count of 1 is dropped; other groups with its
      terms lose one; the rest are kept. */
  function RemoveFromGroups(groups: seq<GroupedOffer>, offer: LoanOfferJson): (r: seq<GroupedOffer>)
    ensures |r| <= |groups|
  {
    if groups == [] then []
    else
      var g := groups[0];
      var rest := RemoveFromGroups(groups[1..], offer);
      if HasTerms(g, offer.amount, offer.duration, offer.basisPoints, offer.collection.address) then
        if g.count == 1 then rest else [g.(count := g.count - 1)] + rest
      else [g] + rest
  }

  /** The removal works group by group: removing from a concatenation is
      concatenating the removals, so every group keeps its place relative
      to the others; a single group with the offer's terms is dropped when
      its count is 1 and decremented otherwise, and any other group stays. */
  lemma {:induction false} RemoveFromGroupsConcat(a: seq<GroupedOffer>, b: seq<GroupedOffer>, offer: LoanOfferJson)
    ensures RemoveFromGroups(a + b, offer) == RemoveFromGroups(a, offer) + RemoveFromGroups(b, offer)
    ensures |a| == 1 ==>
      (RemoveFromGroups(a, offer) ==
         if !HasTerms(a[0], offer.amount, offer.duration, offer.basisPoints, offer.collection.address) then a
         else if a[0].count == 1 then []
         else [a[0].(count := a[0].count - 1)])
  {
    if a == [] {
      assert a + b == b;
    } else {
      assert (a + b)[1..] == a[1..] + b;
      RemoveFromGroupsConcat(a[1..], b, offer);
    }
  }

  /** Groups without the offer's terms pass through unchanged and in order;
      so does a list with no matching group. */
  lemma {:induction false} RemoveFromGroupsKeepsOthers(groups: seq<GroupedOffer>, offer: LoanOfferJson)
    requires forall i :: 0 <= i < |groups| ==> !HasTerms(groups[i], offer.amount, offer.duration, offer.basisPoints, offer.collection.address)
    ensures RemoveFromGroups(groups, offer) == groups
  {
    if groups != [] {
      RemoveFromGroupsKeepsOthers(groups[1..], offer);
    }
  }

  /** Counts of at least one stay at least one. */
  lemma {:induction false} RemoveFromGroupsPositive(groups: seq<GroupedOffer>, offer: LoanOfferJson)
    requires forall i :: 0 <= i < |groups| ==> groups[i].count >= 1
    ensures forall g :: g in RemoveFromGroups(groups, offer) ==> g.count >= 1
  {
    if groups != [] {
      RemoveFromGroupsPositive(groups[1..], offer);
    }
  }

  /** The offer created by `offerLoan` and then taken or closed: adding one
      offer to the groups and removing it again restores them, whether or
      not a group with its terms existed, as long as counts are positive. */
  lemma {:induction false} MergeThenRemove(groups: seq<GroupedOffer>, group: GroupedOffer, offer: LoanOfferJson)
    requires forall i :: 0 <= i < |groups| ==> groups[i].count >= 1
    requires group.count == 1
    requires HasTerms(group, offer.amount, offer.duration, offer.basisPoints, offer.collection.address)
    ensures RemoveFromGroups(MergeGroupedOffer(groups, group, 1), offer) == groups
  {
    if exists i :: 0 <= i < |groups| && SameTerms(groups[i], group) {
      AddThenRemove(groups, group, offer);
    } else {
      AppendThenRemove(groups, group, offer);
    }
  }

  lemma {:induction false} AddThenRemove(groups: seq<GroupedOffer>, group: GroupedOffer, offer: LoanOfferJson)
    requires forall i :: 0 <= i < |groups| ==> groups[i].count >= 1
    requires HasTerms(group, offer.amount, offer.duration, offer.basisPoints, offer.collection.address)
    ensures RemoveFromGroups(AddToMatching(groups, group, 1), offer) == groups
  {
    if groups != [] {
      AddThenRemove(groups[1..], group, offer);
      assert AddToMatching(groups, group, 1)[1..] == AddToMatching(groups[1..], group, 1);
    }
  }

  lemma {:induction false} AppendThenRemove(groups: seq<GroupedOffer>, group: GroupedOffer, offer: LoanOfferJson)
    requires forall i :: 0 <= i < |groups| ==> !SameTerms(groups[i], group)
    requires group.count == 1
    requires HasTerms(group, offer.amount, offer.duration, offer.basisPoints, offer.collection.address)
    ensures RemoveFromGroups(groups + [group], offer) == groups
  {
    if groups == [] {
      assert [group][1..] == [];
    } else {
      assert (groups + [group])[1..] == groups[1..] + [group];
      AppendThenRemove(groups[1..], group, offer);
    }
  }

  /** `removeOfferFromGroupedLoanOffers(offer)` over every grouped query. */
  function RemoveOfferFromGroupedLoanOffers(cache: Cache, offer: LoanOfferJson): (r: Cache)
    ensures r.grouped.Keys == cache.grouped.Keys
    ensures forall k :: k in r.grouped ==> r.grouped[k] == Some(RemoveFromGroups(cache.grouped[k].GetOr([]), offer))
    ensures r.loans == cache.loans && r.loan == cache.loan && r.offers == cache.offers
  {
    cache.(grouped := map k | k in cache.grouped :: Some(RemoveFromGroups(cache.grouped[k].GetOr([]), offer)))
  }

  /** What taking or closing an offer guarantees about the offer lists: every
      cached list holds data afterwards, and it holds exactly the offers it
      held before that do not have the address. */
  ghost predicate OffersLeft(before: Cache, after: Cache, address: string) {
    && after.offers.Keys == before.offers.Keys
    && forall k :: k in before.offers ==>
         && after.offers[k].Some?
         && (forall o :: o in after.offers[k].value <==> o in before.offers[k].GetOr([]) && o.address != address)
  }

  /** What taking or closing an offer does to the grouped lists: every cached
      list holds data afterwards, with one offer of these terms removed. */
  predicate GroupsLeft(before: Cache, after: Cache, offer: LoanOfferJson) {
    && after.grouped.Keys == before.grouped.Keys
    && forall k :: k in before.grouped ==> after.grouped[k] == Some(RemoveFromGroups(before.grouped[k].GetOr([]), offer))
  }

  /** `removeLoanOffer` leaves each offer list with exactly the other offers. */
  lemma RemoveLoanOfferLeaves(cache: Cache, offer: LoanOfferJson)
    ensures OffersLeft(cache, RemoveLoanOffer(cache, offer), offer.address)
  {
    var r := RemoveLoanOffer(cache, offer);
    forall k | k in cache.offers
      ensures forall o :: o in r.offers[k].value <==> o in cache.offers[k].GetOr([]) && o.address != offer.address
    {
      var before := cache.offers[k].GetOr([]);
      var after := Without(before, OfferAddress, offer.address);
      forall o ensures o in after <==> o in before && o.address != offer.address {
        if o in after {
          var i :| 0 <= i < |after| && after[i] == o;
          assert OfferAddress(after[i]) != offer.address;
        }
        if o in before && o.address != offer.address {
          var i :| 0 <= i < |before| && before[i] == o;
          assert OfferAddress(before[i]) != offer.address;
        }
      }
    }
  }

  /** What the take mutation is called with: the collateral's mint and the
      offer taken. */
  datatype TakeLoanVariables = TakeLoanVariables(mint: string, offer: LoanOfferJson)

  /** The success handler of taking an offer: the offer leaves every offer
      list and one offer leaves its group; the mint is not used, and the loan
      queries are untouched. */
  function TakeLoan(cache: Cache, variables: TakeLoanVariables): (r: Cache)
    ensures r.loans == cache.loans && r.loan == cache.loan
    ensures OffersLeft(cache, r, variables.offer.address)
    ensures GroupsLeft(cache, r, variables.offer)
  {
    RemoveLoanOfferLeaves(cache, variables.offer);
    RemoveOfferFromGroupedLoanOffers(RemoveLoanOffer(cache, variables.offer), variables.offer)
  }

  /** The success handler of closing an offer: the same two removals as
      taking it. */
  function CloseOffer(cache: Cache, offer: LoanOfferJson): (r: Cache)
    ensures r.loans == cache.loans && r.loan == cache.loan
    ensures OffersLeft(cache, r, offer.address)
    ensures GroupsLeft(cache, r, offer)
  {
    RemoveLoanOfferLeaves(cache, offer);
    RemoveOfferFromGroupedLoanOffers(RemoveLoanOffer(cache, offer), offer)
  }

  // ---------------------------------------------------------------------------
  // Offer ids

  /** The free ids from `id` up to 255, at most `n` of them, in increasing
      order: the reference for `pickOfferIds`. */
  function FreeIdsFrom(existing: seq<int>, id: int, n: int): seq<int>
    requires id >= 0
    decreases 256 - id
  {
    if n <= 0 || id > 255 then []
    else if id in existing then FreeIdsFrom(existing, id + 1, n)
    else [id] + FreeIdsFrom(existing, id + 1, n - 1)
  }

  /** The reference picks ids in 0..255 that are not taken, in increasing
      order, and no more than asked for. */
  lemma {:induction false} FreeIdsFromBounds(existing: seq<int>, id: int, n: int)
    requires id >= 0
    ensures var r := FreeIdsFrom(existing, id, n);
      && (n <= 0 ==> r == [])
      && (n > 0 ==> |r| <= n)
      && (forall i :: 0 <= i < |r| ==> id <= r[i] <= 255 && r[i] !in existing)
      && (forall i, j :: 0 <= i < j < |r| ==> r[i] < r[j])
    decreases 256 - id
  {
    if n > 0 && id <= 255 {
      FreeIdsFromBounds(existing, id + 1, n);
      FreeIdsFromBounds(existing, id + 1, n - 1);
    }
  }

  /** Every free id the reference skips lies beyond the last one it picked,
      and it skips none when it stops short of `n`. */
  lemma {:induction false} FreeIdsFromComplete(existing: seq<int>, id: int, n: int, v: int)
    requires 0 <= id <= v <= 255 && v !in existing
    requires var r := FreeIdsFrom(existing, id, n); |r| < n || (r != [] && v < r[|r| - 1])
    ensures v in FreeIdsFrom(existing, id, n)
    decreases 256 - id
  {
    var r := FreeIdsFrom(existing, id, n);
    if v != id {
      if id in existing {
        FreeIdsFromComplete(existing, id + 1, n, v);
      } else {
        var tail := FreeIdsFrom(existing, id + 1, n - 1);
        assert r == [id] + tail;
        if |r| >= n {
          assert tail != [];
          assert r[|r| - 1] == tail[|tail| - 1];
        }
        FreeIdsFromComplete(existing, id + 1, n - 1, v);
      }
    }
  }

  /** One step of the reference: a taken id is skipped, a free one is picked. */
  lemma FreeIdsStep(picked: seq<int>, existing: seq<int>, id: int, n: int)
    requires 0 <= id <= 255 && n > 0
    ensures id in existing ==> picked + FreeIdsFrom(existing, id, n) == picked + FreeIdsFrom(existing, id + 1, n)
    ensures id !in existing ==> picked + FreeIdsFrom(existing, id, n) == (picked + [id]) + FreeIdsFrom(existing, id + 1, n - 1)
  {
    if id !in existing {
      assert picked + ([id] + FreeIdsFrom(existing, id + 1, n - 1)) == (picked + [id]) + FreeIdsFrom(existing, id + 1, n - 1);
    }
  }

  /** The loop of `pickOfferIds`: walk the ids upwards, keeping the free
      ones, until enough are picked or the ids run out. */
  method PickFreeIds(existing: seq<int>, count: int) returns (ids: seq<int>)
    ensures ids == FreeIdsFrom(existing, 0, count)
  {
    ids := [];
    var id := 0;
    while |ids| < count && id <= 255
      invariant 0 <= id <= 256
      invariant ids + FreeIdsFrom(existing, id, count - |ids|) == FreeIdsFrom(existing, 0, count)
      decreases 256 - id
    {
      FreeIdsStep(ids, existing, id, count - |ids|);
      if id !in existing {
        ids := ids + [id];
      }
      id := id + 1;
    }
    assert FreeIdsFrom(existing, id, count - |ids|) == [];
  }

  /** `pickOfferIds(offers, count)`: the `count` smallest ids in 0..255 that
      no existing offer uses, or all of them when fewer are free. */
  method PickOfferIds(offers: seq<LoanOfferJson>, count: int) returns (ids: seq<int>)
    ensures count <= 0 ==> ids == []
    ensures count > 0 ==> |ids| <= count
    ensures forall i :: 0 <= i < |ids| ==> 0 <= ids[i] <= 255 && ids[i] !in OfferIds(offers)
    ensures forall i, j :: 0 <= i < j < |ids| ==> ids[i] < ids[j]
    ensures forall v ::
      (0 <= v <= 255 && v !in OfferIds(offers) &&
       (|ids| < count || (ids != [] && v < ids[|ids| - 1]))) ==> v in ids
  {
    var existing := OfferIds(offers);
    ids := PickFreeIds(existing, count);
    FreeIdsSpec(ids, existing, count);
  }

  /** The properties of the reference `PickOfferIds` promises. */
  lemma FreeIdsSpec(r: seq<int>, existing: seq<int>, count: int)
    requires r == FreeIdsFrom(existing, 0, count)
    ensures && (count <= 0 ==> r == [])
      && (count > 0 ==> |r| <= count)
      && (forall i :: 0 <= i < |r| ==> 0 <= r[i] <= 255 && r[i] !in existing)
      && (forall i, j :: 0 <= i < j < |r| ==> r[i] < r[j])
      && (forall v ::
            (0 <= v <= 255 && v !in existing &&
             (|r| < count || (r != [] && v < r[|r| - 1]))) ==> v in r)
  {
    FreeIdsFromBounds(existing, 0, count);
    forall v | 0 <= v <= 255 && v !in existing && (|r| < count || (r != [] && v < r[|r| - 1]))
      ensures v in r
    {
      FreeIdsFromComplete(existing, 0, count, v);
    }
  }

  /** The ids the existing offers use. */
  function OfferIds(offers: seq<LoanOfferJson>): (ids: seq<int>)
    ensures |ids| == |offers|
    ensures forall i :: 0 <= i < |offers| ==> ids[i] == offers[i].offerId
  {
    if offers == [] then [] else [offers[0].offerId] + OfferIds(offers[1..])
  }

  // ---------------------------------------------------------------------------
  // Creating loans and offers

  /** The optimistic loan `askLoan` caches: listed, nothing repaid, no lender
      and no start date yet. Its collection address is the collection's mint. */
  function NewLoan(
    loanAddress: string, borrower: string, mint: string, collectionMint: string,
    amount: nat, basisPoints: int, duration: nat,
    collection: CollectionJson, metadataUri: Option<string>): (l: LoanJson)
    ensures l.state == Listed && l.outstanding == l.amount && l.lender.None? && l.startDate.None?
    ensures Parse(l.amount, Hex) == Some(amount) && Parse(l.duration, Hex) == Some(duration)
    ensures l.address == loanAddress && l.borrower == borrower && l.mint == mint
    ensures l.collectionAddress == collectionMint && l.creatorBasisPoints == collection.loanBasisPoints
    ensures l.uri == metadataUri.GetOr("")
    ensures l.basisPoints == basisPoints && l.installments == 1 && l.currentInstallment == 0
    ensures l.tokenMint.None? && l.threshold.None? && l.noticeIssued.None? && l.collection == collection
  {
    LoanJson(
      loanAddress, ToHexString(amount), ToHexString(amount), basisPoints, collection.loanBasisPoints,
      ToHexString(duration), Listed, borrower, mint, collectionMint, 1, 0, metadataUri.GetOr(""),
      None, None, None, None, None, collection)
  }

  /** Whether a "loans" query is filtered to a collection other than the
      one the loan was listed in. */
  predicate FilteredElsewhere(key: QueryKey, collectionAddress: string) {
    key.arg.Object? && !key.arg.collection.Missing? && key.arg.collection != Value(collectionAddress)
  }

  /** The success handler of `askLoan`: the new loan is appended to every
      "loans" list not filtered to another collection (checked against the
      derived collection address), and stored under ["loan", address] if
      that query already exists. */
  function AskLoan(cache: Cache, newLoan: LoanJson, collectionAddress: string): (r: Cache)
    ensures r.loans.Keys == cache.loans.Keys
    ensures forall k :: k in cache.loans && FilteredElsewhere(k, collectionAddress) ==> r.loans[k] == cache.loans[k]
    ensures forall k :: k in cache.loans && !FilteredElsewhere(k, collectionAddress) ==>
      r.loans[k] == Some(cache.loans[k].GetOr([]) + [newLoan])
    ensures r.loan.Keys == cache.loan.Keys
    ensures newLoan.address in cache.loan ==> r.loan[newLoan.address] == Some(newLoan)
    ensures forall a :: a in cache.loan && a != newLoan.address ==> r.loan[a] == cache.loan[a]
    ensures r.grouped == cache.grouped && r.offers == cache.offers
  {
    var loans := map k | k in cache.loans ::
      if FilteredElsewhere(k, collectionAddress) then cache.loans[k] else Some(cache.loans[k].GetOr([]) + [newLoan]);
    var loan := if newLoan.address in cache.loan then cache.loan[newLoan.address := Some(newLoan)] else cache.loan;
    cache.(loans := loans, loan := loan)
  }

  /** Listing a loan and then removing it (as the give, close and repossess
      handlers do) restores each loan list that did not hold its address. */
  lemma AskThenRemove(cache: Cache, newLoan: LoanJson, collectionAddress: string, k: QueryKey)
    requires k in cache.loans
    requires forall i :: 0 <= i < |cache.loans[k].GetOr([])| ==> cache.loans[k].GetOr([])[i].address != newLoan.address
    ensures RemoveLoanFromList(AskLoan(cache, newLoan, collectionAddress), newLoan.address).loans[k] == Some(cache.loans[k].GetOr([]))
  {
    var before := cache.loans[k].GetOr([]);
    WithoutAbsent(before, LoanAddress, newLoan.address);
    if !FilteredElsewhere(k, collectionAddress) {
      WithoutConcat(before, [newLoan], LoanAddress, newLoan.address);
      assert Without([newLoan], LoanAddress, newLoan.address) == [];
      assert before + [] == before;
    }
  }

  /** Listing the same loan twice lists it twice. */
  lemma AskLoanTwice(newLoan: LoanJson, collectionAddress: string)
    ensures var cache := Cache(map[QueryKey(NoArg, []) := None], map[], map[], map[]);
      AskLoan(AskLoan(cache, newLoan, collectionAddress), newLoan, collectionAddress).loans[QueryKey(NoArg, [])] == Some([newLoan, newLoan])
  {
    var k := QueryKey(NoArg, []);
    var cache := Cache(map[k := None], map[], map[], map[]);
    var once := AskLoan(cache, newLoan, collectionAddress);
    assert !FilteredElsewhere(k, collectionAddress);
    assert cache.loans[k].GetOr([]) == [];
    assert [] + [newLoan] == [newLoan];
    assert once.loans[k] == Some([newLoan]);
    assert [newLoan] + [newLoan] == [newLoan, newLoan];
  }

  /** The offers `offerLoan` created, one per (address, id) pair. */
  function NewLoanOffers(created: seq<(string, int)>, amount: string, duration: string, lender: string,
                         basisPoints: int, collectionAddress: string, collection: CollectionJson): (r: seq<LoanOfferJson>)
    ensures |r| == |created|
    ensures forall i :: 0 <= i < |r| ==> r[i].address == created[i].0 && r[i].offerId == created[i].1
    ensures forall i :: 0 <= i < |r| ==> r[i].amount == amount && r[i].duration == duration && r[i].basisPoints == basisPoints
    ensures forall i :: 0 <= i < |r| ==> r[i].lender == lender && r[i].ltv.None? && r[i].threshold.None?
    ensures forall i :: 0 <= i < |r| ==> r[i].collectionAddress == collectionAddress && r[i].collection == collection
  {
    seq(|created|, i requires 0 <= i < |created| =>
      LoanOfferJson(created[i].0, created[i].1, amount, duration, lender, basisPoints, None, None, collectionAddress, collection))
  }

  /** Whether an offer list's filters select the new offers. */
  predicate FiltersSelect(filters: Option<OfferFilters>, collectionAddress: string, amount: string, duration: string, basisPoints: int) {
    filters.Some? &&
    var f := filters.value;
    f.collections.Some? && collectionAddress in f.collections.value &&
    f.amount == Some(amount) && f.duration == Some(duration) && f.basisPoints == Some(basisPoints)
  }

  /** The success handler of `offerLoan`. Grouped queries not filtered to
      another collection merge the new group; `keyMatches` stands for the
      source's comparison of a key's collection with the collection key
      object. Offer lists whose filters select the new offers get them
      appended. */
  function OfferLoan(
    cache: Cache, created: seq<(string, int)>, amount: nat, duration: nat, basisPoints: int,
    lender: string, collectionKey: string, collection: CollectionJson, keyMatches: Prop -> bool): (r: Cache)
    ensures r.grouped.Keys == cache.grouped.Keys && r.offers.Keys == cache.offers.Keys
    ensures forall k :: k in cache.grouped && k.arg.Object? && !k.arg.collection.Missing? && !keyMatches(k.arg.collection) ==>
      r.grouped[k] == cache.grouped[k]
    ensures forall k :: k in cache.grouped && !(k.arg.Object? && !k.arg.collection.Missing? && !keyMatches(k.arg.collection)) ==>
      r.grouped[k] == Some(MergeGroupedOffer(cache.grouped[k].GetOr([]),
        GroupedOffer(|created|, ToHexString(amount), ToHexString(duration), basisPoints, collection), |created|))
    ensures forall k :: k in cache.offers ==>
      r.offers[k] == if FiltersSelect(k.filters, collection.address, ToHexString(amount), ToHexString(duration), basisPoints)
        then Some(cache.offers[k].GetOr([]) + NewLoanOffers(created, ToHexString(amount), ToHexString(duration), lender, basisPoints, collectionKey, collection))
        else cache.offers[k]
    ensures r.loans == cache.loans && r.loan == cache.loan
  {
    var amountHex := ToHexString(amount);
    var durationHex := ToHexString(duration);
    var group := GroupedOffer(|created|, amountHex, durationHex, basisPoints, collection);
    var newOffers := NewLoanOffers(created, amountHex, durationHex, lender, basisPoints, collectionKey, collection);
    var grouped := map k | k in cache.grouped ::
      if k.arg.Object? && !k.arg.collection.Missing? && !keyMatches(k.arg.collection) then cache.grouped[k]
      else Some(MergeGroupedOffer(cache.grouped[k].GetOr([]), group, |created|));
    var offers := map k | k in cache.offers ::
      if FiltersSelect(k.filters, collection.address, amountHex, durationHex, basisPoints)
      then Some(cache.offers[k].GetOr([]) + newOffers)
      else cache.offers[k];
    cache.(grouped := grouped, offers := offers)
  }

  /** The one offer `offerLoan` records for a single created (address, id). */
  function SingleOffer(address: string, offerId: int, amount: nat, duration: nat, basisPoints: int,
                       lender: string, collectionKey: string, collection: CollectionJson): (o: LoanOfferJson)
    ensures o.address == address && o.offerId == offerId && o.collection == collection
    ensures Parse(o.amount, Hex) == Some(amount) && Parse(o.duration, Hex) == Some(duration)
  {
    NewLoanOffers([(address, offerId)], ToHexString(amount), ToHexString(duration), lender, basisPoints, collectionKey, collection)[0]
  }

  /** Offering a single loan and then taking (or closing) that offer
      restores every grouped query the offer was merged into, as long as
      its counts were positive; a query without data comes back empty. */
  lemma OfferThenTakeGrouped(
    cache: Cache, address: string, offerId: int, amount: nat, duration: nat, basisPoints: int,
    lender: string, collectionKey: string, collection: CollectionJson, keyMatches: Prop -> bool, mint: string, k: QueryKey)
    requires k in cache.grouped
    requires !(k.arg.Object? && !k.arg.collection.Missing? && !keyMatches(k.arg.collection))
    requires forall i :: 0 <= i < |cache.grouped[k].GetOr([])| ==> cache.grouped[k].GetOr([])[i].count >= 1
    ensures var offer := SingleOffer(address, offerId, amount, duration, basisPoints, lender, collectionKey, collection);
      var offered := OfferLoan(cache, [(address, offerId)], amount, duration, basisPoints, lender, collectionKey, collection, keyMatches);
      TakeLoan(offered, TakeLoanVariables(mint, offer)).grouped[k] == Some(cache.grouped[k].GetOr([]))
  {
    var offer := SingleOffer(address, offerId, amount, duration, basisPoints, lender, collectionKey, collection);
    var group := GroupedOffer(1, ToHexString(amount), ToHexString(duration), basisPoints, collection);
    MergeThenRemove(cache.grouped[k].GetOr([]), group, offer);
  }

  /** Likewise every offer list: the offer is appended where the filters
      select it and removed again by address, so a list that did not hold
      that address comes back as it was. */
  lemma OfferThenTakeOffers(
    cache: Cache, address: string, offerId: int, amount: nat, duration: nat, basisPoints: int,
    lender: string, collectionKey: string, collection: CollectionJson, keyMatches: Prop -> bool, mint: string, k: OffersKey)
    requires k in cache.offers
    requires forall i :: 0 <= i < |cache.offers[k].GetOr([])| ==> cache.offers[k].GetOr([])[i].address != address
    ensures var offer := SingleOffer(address, offerId, amount, duration, basisPoints, lender, collectionKey, collection);
      var offered := OfferLoan(cache, [(address, offerId)], amount, duration, basisPoints, lender, collectionKey, collection, keyMatches);
      TakeLoan(offered, TakeLoanVariables(mint, offer)).offers[k] == Some(cache.offers[k].GetOr([]))
  {
    var offer := SingleOffer(address, offerId, amount, duration, basisPoints, lender, collectionKey, collection);
    var before := cache.offers[k].GetOr([]);
    var added := NewLoanOffers([(address, offerId)], ToHexString(amount), ToHexString(duration), lender, basisPoints, collectionKey, collection);
    WithoutAbsent(before, OfferAddress, address);
    if FiltersSelect(k.filters, collection.address, ToHexString(amount), ToHexString(duration), basisPoints) {
      assert added == [offer];
      WithoutConcat(before, [offer], OfferAddress, address);
      assert Without([offer], OfferAddress, address) == [];
      assert before + [] == before;
    }
  }

  // ---------------------------------------------------------------------------
  // Updating a cached loan

  /** `Partial<LoanJson>` as the handlers use it: each field either kept or
      overwritten. */
  datatype LoanPatch = LoanPatch(
    lender: Option<string>,
    startDate: Option<string>,
    state: Option<LoanState>,
    outstanding: Option<string>)

  /** `{ ...data, ...update }`. */
  function ApplyPatch(l: LoanJson, p: LoanPatch): (r: LoanJson)
    ensures p.lender.Some? ==> r.lender == p.lender
    ensures p.startDate.Some? ==> r.startDate == p.startDate
    ensures p.state.Some? ==> r.state == p.state.value
    ensures p.outstanding.Some? ==> r.outstanding == p.outstanding.value
    ensures r.(lender := l.lender, startDate := l.startDate, state := l.state, outstanding := l.outstanding) == l
    ensures p == LoanPatch(None, None, None, None) ==> r == l
  {
    l.(lender := if p.lender.Some? then p.lender else l.lender,
       startDate := if p.startDate.Some? then p.startDate else l.startDate,
       state := p.state.GetOr(l.state),
       outstanding := p.outstanding.GetOr(l.outstanding))
  }

  /** `updateLoan(key, update)`: a cached loan is patched; a query without
      data, and a loan that is not cached, stay as they are. */
  function UpdateLoan(cache: Cache, address: string, p: LoanPatch): (r: Cache)
    ensures r.loan.Keys == cache.loan.Keys
    ensures address in cache.loan && cache.loan[address].Some? ==> r.loan[address] == Some(ApplyPatch(cache.loan[address].value, p))
    ensures address in cache.loan && cache.loan[address].None? ==> r.loan[address].None?
    ensures forall a :: a in cache.loan && a != address ==> r.loan[a] == cache.loan[a]
    ensures r.loans == cache.loans && r.grouped == cache.grouped && r.offers == cache.offers
  {
    if address in cache.loan && cache.loan[address].Some? then
      cache.(loan := cache.loan[address := Some(ApplyPatch(cache.loan[address].value, p))])
    else cache
  }

  /** What the give, close and repossess handlers guarantee about the loan
      lists: every cached list holds data afterwards, none holds the loan,
      and every other loan a list held is still in it. */
  predicate LeftLists(before: Cache, after: Cache, address: string) {
    && after.loans.Keys == before.loans.Keys
    && forall k :: k in before.loans ==>
         && after.loans[k].Some?
         && (forall l :: l in after.loans[k].value ==> l.address != address)
         && (forall l :: l in before.loans[k].GetOr([]) && l.address != address ==> l in after.loans[k].value)
  }

  /** Only the single-loan entry at `address` may differ, and the offer
      queries are untouched. */
  predicate OthersKept(before: Cache, after: Cache, address: string) {
    && after.loan.Keys == before.loan.Keys
    && (forall a :: a in before.loan && a != address ==> after.loan[a] == before.loan[a])
    && after.grouped == before.grouped && after.offers == before.offers
  }

  lemma RemoveLoanFromListLeaves(cache: Cache, address: string)
    ensures LeftLists(cache, RemoveLoanFromList(cache, address), address)
    ensures OthersKept(cache, RemoveLoanFromList(cache, address), address)
  {
    forall k | k in cache.loans
      ensures var r := RemoveLoanFromList(cache, address);
        && r.loans[k].Some?
        && (forall l :: l in r.loans[k].value ==> l.address != address)
        && (forall l :: l in cache.loans[k].GetOr([]) && l.address != address ==> l in r.loans[k].value)
    {
      RemoveLoanFromListSpec(cache, address, k);
    }
  }

  /** The success handler of `giveLoan`: with a connected wallet, the loan
      leaves the lists and, when cached, becomes active, lent by the wallet,
      starting at the current second (`Math.round(Date.now() / 1000)`, in
      hex); without a wallet nothing changes. */
  function GiveLoan(cache: Cache, loanAddress: string, wallet: Option<string>, nowMs: nat): (r: Cache)
    ensures wallet.None? ==> r == cache
    ensures wallet.Some? ==> LeftLists(cache, r, loanAddress) && OthersKept(cache, r, loanAddress)
    ensures wallet.Some? && loanAddress in cache.loan ==>
      r.loan[loanAddress] == if cache.loan[loanAddress].None? then None
        else Some(cache.loan[loanAddress].value.(state := Active, lender := wallet,
          startDate := Some(ToHexString((nowMs + 500) / 1000))))
    ensures wallet.Some? && loanAddress in cache.loan && cache.loan[loanAddress].Some? ==>
      r.loan[loanAddress].value.startDate.Some? &&
      Parse(r.loan[loanAddress].value.startDate.value, Hex) == Some((nowMs + 500) / 1000)
  {
    match wallet
    case None => cache
    case Some(w) =>
      RemoveLoanFromListLeaves(cache, loanAddress);
      UpdateLoan(RemoveLoanFromList(cache, loanAddress), loanAddress,
        LoanPatch(Some(w), Some(ToHexString((nowMs + 500) / 1000)), Some(Active), None))
  }

  /** The success handler of `closeLoan`: out of the lists and, when cached,
      cancelled. */
  function CloseLoan(cache: Cache, loanAddress: string): (r: Cache)
    ensures LeftLists(cache, r, loanAddress) && OthersKept(cache, r, loanAddress)
    ensures loanAddress in cache.loan ==>
      r.loan[loanAddress] == if cache.loan[loanAddress].None? then None
        else Some(cache.loan[loanAddress].value.(state := Cancelled))
  {
    RemoveLoanFromListLeaves(cache, loanAddress);
    UpdateLoan(RemoveLoanFromList(cache, loanAddress), loanAddress, LoanPatch(None, None, Some(Cancelled), None))
  }

  /** The success handler of `repossessCollateral`: out of the lists and,
      when cached, defaulted. */
  function Repossess(cache: Cache, loanAddress: string): (r: Cache)
    ensures LeftLists(cache, r, loanAddress) && OthersKept(cache, r, loanAddress)
    ensures loanAddress in cache.loan ==>
      r.loan[loanAddress] == if cache.loan[loanAddress].None? then None
        else Some(cache.loan[loanAddress].value.(state := Defaulted))
  {
    RemoveLoanFromListLeaves(cache, loanAddress);
    UpdateLoan(RemoveLoanFromList(cache, loanAddress), loanAddress, LoanPatch(None, None, Some(Defaulted), None))
  }

  /** The success handler of `repayLoan`: when cached, the loan is repaid
      with nothing outstanding (`BigInt(0).toString(16)`, which reads back
      as zero); the lists are refetched rather than patched. */
  function RepayLoan(cache: Cache, loanAddress: string): (r: Cache)
    ensures r.loans == cache.loans && OthersKept(cache, r, loanAddress)
    ensures loanAddress in cache.loan ==>
      r.loan[loanAddress] == if cache.loan[loanAddress].None? then None
        else Some(cache.loan[loanAddress].value.(state := Repaid, outstanding := "0"))
    ensures loanAddress in cache.loan && cache.loan[loanAddress].Some? ==>
      Parse(r.loan[loanAddress].value.outstanding, Hex) == Some(0)
  {
    assert Render(0, Hex) == [Char(Hex, 0)];
    assert ToHexString(0) == "0";
    UpdateLoan(cache, loanAddress, LoanPatch(None, None, Some(Repaid), Some("0")))
  }
}

=== FILE: query_common.dfy ===
/** Account helpers shared by the queries: the seeds of the metadata and
    master-edition addresses, decoding an SPL token account, fetching
    metadata accounts, and selecting the wallet NFTs that belong to a
    whitelisted collection. Program-address derivation, the account-layout
    decoder, the metadata parser and the RPC reads are function parameters. */
module QueryCommon {
  import opened Wrappers
  import opened Keys
  import opened Digits
  import TokenMetadata

  /** `METADATA_PROGRAM_ID`, metaqbxxUerdq28cj1RbAWkYQm3ybzjb6a8bt518x1s. */
  const MetadataProgramId: PublicKey := PublicKey(0x0b7065b1e3d17c45389d527f6b04c3cd58b86c731aa0fdb549b6d1bc03f82946)

  /** `TOKEN_PROGRAM_ID`, TokenkegQfeZyiNwAJbNbGKPFXCWuBvf9Ss623VQ5DA. */
  const TokenProgramId: PublicKey := PublicKey(0x06ddf6e1d765a193d9cbe146ceeb79ac1cb485ed5f5b37913a8cf5857eff00a9)

  /** `ACCOUNT_SIZE`: the byte length of an SPL token account. */
  const AccountSize: nat := 165

  type Seeds = seq<seq<Byte>>

  /** `findProgramAddress(seeds, programId)`: the derived address and its bump. */
  type Derive = (Seeds, PublicKey) -> (PublicKey, Byte)

  // ---------------------------------------------------------------------------
  // Derived addresses

  const MetadataSeed: seq<Byte> := AsciiBytes("metadata")
  const EditionSeed: seq<Byte> := AsciiBytes("edition")

  /** The seeds of `findMetadataAddress(mint)`: "metadata", the metadata
      program's key, the mint. */
  function MetadataSeeds(mint: PublicKey): (seeds: Seeds)
    ensures |seeds| == 3 && seeds[0] == MetadataSeed && |seeds[2]| == 32
    ensures seeds[1] == ToBuffer(MetadataProgramId)
  {
    [MetadataSeed, ToBuffer(MetadataProgramId), ToBuffer(mint)]
  }

  /** The seeds of `findEditionAddress(mint)`. */
  function EditionSeeds(mint: PublicKey): (seeds: Seeds)
    ensures |seeds| == 4
    ensures seeds[..3] == MetadataSeeds(mint) && seeds[3] == EditionSeed
  {
    MetadataSeeds(mint) + [EditionSeed]
  }

  /** The mint a metadata or edition seed list was built from. */
  function MintOfSeeds(seeds: Seeds): (mint: Option<PublicKey>)
    ensures mint.Some? ==> |seeds| >= 3 && ToBuffer(mint.value) == seeds[2]
  {
    if |seeds| >= 3 && |seeds[2]| == 32 then
      var v := FromDigits(seeds[2], 256);
      KeySpaceIsPow();
      FromDigitsBound(seeds[2], 256);
      var k := PublicKey(v);
      if ToBuffer(k) == seeds[2] then Some(k) else None
    else None
  }

  lemma {:induction false} FromDigitsBound(ds: seq<Byte>, base: nat)
    requires base == 256
    ensures FromDigits(ds, base) < Pow(base, |ds|)
  {
    if ds != [] {
      var init := ds[..|ds| - 1];
      assert ds == init + [ds[|ds| - 1]];
      FromDigitsBound(init, base);
      UpperStep(FromDigits(init, base), ds[|ds| - 1], base, Pow(base, |init|));
    }
  }

  /** The mint is read back from both seed lists, so different mints never
      share a seed list, and a metadata list is never an edition list. */
  lemma SeedsIdentifyMint(mint: PublicKey, other: PublicKey)
    ensures MintOfSeeds(MetadataSeeds(mint)) == Some(mint)
    ensures MintOfSeeds(EditionSeeds(mint)) == Some(mint)
    ensures MetadataSeeds(mint) == MetadataSeeds(other) <==> mint == other
    ensures EditionSeeds(mint) == EditionSeeds(other) <==> mint == other
    ensures MetadataSeeds(mint) != EditionSeeds(other)
  {
    var buf := ToBuffer(mint);
    assert FromDigits(buf, 256) == mint.value;
    if EditionSeeds(mint) == EditionSeeds(other) {
      assert EditionSeeds(mint)[2] == EditionSeeds(other)[2];
      ToBufferInjective(mint, other);
    }
  }

  /** `findMetadataAddress(mint)`, keeping only the address. */
  function FindMetadataAddress(derive: Derive, mint: PublicKey): PublicKey {
    derive(MetadataSeeds(mint), MetadataProgramId).0
  }

  /** `findEditionAddress(mint)`: address and bump. */
  function FindEditionAddress(derive: Derive, mint: PublicKey): (PublicKey, Byte) {
    derive(EditionSeeds(mint), MetadataProgramId)
  }

  // ---------------------------------------------------------------------------
  // Token accounts

  /** `AccountInfo<Buffer>`: the owning program and the raw data. */
  datatype AccountInfo = AccountInfo(owner: PublicKey, data: seq<Byte>)

  datatype AccountState = Uninitialized | Initialized | Frozen

  /** What `AccountLayout.decode` yields; the `…Option` fields are the `u32`
      tags of the optional fields. */
  datatype RawAccount = RawAccount(
    mint: PublicKey,
    owner: PublicKey,
    amount: nat,
    delegateOption: nat,
    delegate: PublicKey,
    state: AccountState,
    isNativeOption: nat,
    isNative: nat,
    delegatedAmount: nat,
    closeAuthorityOption: nat,
    closeAuthority: PublicKey)

  /** `AccountLayout.decode(data)`: None when it throws. */
  type Decode = seq<Byte> -> Option<RawAccount>

  /** A decoder that, like the buffer layout, throws on data too short for
      an account. */
  ghost predicate RejectsShortData(decode: Decode) {
    forall data: seq<Byte> | |data| < AccountSize :: decode(data).None?
  }

  datatype TokenError =
    | TokenAccountNotFound
    | TokenInvalidAccountOwner
    | TokenInvalidAccountSize
    | LayoutDecodeFailed

  /** The token account `unpackToken` returns. */
  datatype TokenAccount = TokenAccount(
    address: PublicKey,
    mint: PublicKey,
    owner: PublicKey,
    amount: nat,
    delegate: Option<PublicKey>,
    delegatedAmount: nat,
    isInitialized: bool,
    isFrozen: bool,
    isNative: bool,
    rentExemptReserve: Option<nat>,
    closeAuthority: Option<PublicKey>)

  /** The derived fields: a zero tag means the optional field is null. */
  function Account(address: PublicKey, raw: RawAccount): (t: TokenAccount)
    ensures t.isInitialized <==> raw.state != Uninitialized
    ensures t.isFrozen <==> raw.state == Frozen
    ensures t.delegate.None? <==> raw.delegateOption == 0
    ensures t.rentExemptReserve.None? <==> raw.isNativeOption == 0
    ensures t.isNative <==> t.rentExemptReserve.Some?
    ensures t.closeAuthority.None? <==> raw.closeAuthorityOption == 0
    ensures t.delegate.Some? ==> t.delegate.value == raw.delegate
    ensures t.closeAuthority.Some? ==> t.closeAuthority.value == raw.closeAuthority
    ensures t.address == address && t.mint == raw.mint && t.amount == raw.amount
  {
    TokenAccount(
      address, raw.mint, raw.owner, raw.amount,
      if raw.delegateOption != 0 then Some(raw.delegate) else None,
      raw.delegatedAmount,
      raw.state != Uninitialized,
      raw.state == Frozen,
      raw.isNativeOption != 0,
      if raw.isNativeOption != 0 then Some(raw.isNative) else None,
      if raw.closeAuthorityOption != 0 then Some(raw.closeAuthority) else None)
  }

  /** `unpackToken` as written: the data is decoded before the owner and
      size checks, so a decoder failure pre-empts both. */
  function UnpackTokenAsWritten(address: PublicKey, info: Option<AccountInfo>, programId: PublicKey, decode: Decode): (r: Result<TokenAccount, TokenError>)
    ensures info.None? ==> r == Failure(TokenAccountNotFound)
    ensures info.Some? && decode(info.value.data).None? ==> r == Failure(LayoutDecodeFailed)
    ensures r.Success? <==> info.Some? && decode(info.value.data).Some? && info.value.owner == programId && |info.value.data| >= AccountSize
  {
    match info
    case None => Failure(TokenAccountNotFound)
    case Some(i) =>
      match decode(i.data)
      case None => Failure(LayoutDecodeFailed)
      case Some(raw) =>
        if i.owner != programId then Failure(TokenInvalidAccountOwner)
        else if |i.data| < AccountSize then Failure(TokenInvalidAccountSize)
        else Success(Account(address, raw))
  }

  /** `unpackToken` with the checks first, as the token library orders them:
      missing account, then wrong owner, then short data; only then is the
      account's prefix decoded. */
  function UnpackToken(address: PublicKey, info: Option<AccountInfo>, programId: PublicKey, decode: Decode): (r: Result<TokenAccount, TokenError>)
    ensures info.None? <==> r == Failure(TokenAccountNotFound)
    ensures info.Some? && info.value.owner != programId <==> r == Failure(TokenInvalidAccountOwner)
    ensures info.Some? && info.value.owner == programId && |info.value.data| < AccountSize <==> r == Failure(TokenInvalidAccountSize)
    ensures r.Success? ==> info.Some? && |info.value.data| >= AccountSize && decode(info.value.data[..AccountSize]).Some?
    ensures r.Success? ==> r.value == Account(address, decode(info.value.data[..AccountSize]).value)
  {
    match info
    case None => Failure(TokenAccountNotFound)
    case Some(i) =>
      if i.owner != programId then Failure(TokenInvalidAccountOwner)
      else if |i.data| < AccountSize then Failure(TokenInvalidAccountSize)
      else
        match decode(i.data[..AccountSize])
        case None => Failure(LayoutDecodeFailed)
        case Some(raw) => Success(Account(address, raw))
  }

  /** With a decoder that rejects short data, an account owned by another
      program is reported as a decode failure rather than as an owner error:
      the as-written order hides the owner check. */
  lemma UnpackOrderHidesOwnerError(address: PublicKey, owner: PublicKey, programId: PublicKey, decode: Decode)
    requires RejectsShortData(decode) && owner != programId
    ensures UnpackTokenAsWritten(address, Some(AccountInfo(owner, [])), programId, decode) == Failure(LayoutDecodeFailed)
    ensures UnpackToken(address, Some(AccountInfo(owner, [])), programId, decode) == Failure(TokenInvalidAccountOwner)
  {
    var empty: seq<Byte> := [];
    assert decode(empty).None?;
  }

  /** On data the decoder accepts, with the owner right and the size enough,
      both orders agree when the decoder reads only the account's prefix. */
  lemma UnpackOrdersAgree(address: PublicKey, info: AccountInfo, programId: PublicKey, decode: Decode)
    requires |info.data| == AccountSize && info.owner == programId
    ensures UnpackTokenAsWritten(address, Some(info), programId, decode) == UnpackToken(address, Some(info), programId, decode)
  {
    assert info.data[..AccountSize] == info.data;
  }

  /** A decoder that reads only the account's first `AccountSize` bytes. */
  ghost predicate ReadsPrefix(decode: Decode) {
    forall data: seq<Byte> | |data| >= AccountSize :: decode(data) == decode(data[..AccountSize])
  }

  /** For an account the token program owns (all `getTokenAccountsByOwner`
      returns under its program filter) and a decoder that reads only the
      prefix, both orders succeed together and give the same account; they
      can differ only in which error a failure reports. */
  lemma UnpackOrdersAgreeOnSuccess(address: PublicKey, info: AccountInfo, programId: PublicKey, decode: Decode)
    requires info.owner == programId && ReadsPrefix(decode)
    ensures UnpackTokenAsWritten(address, Some(info), programId, decode).Success?
        <==> UnpackToken(address, Some(info), programId, decode).Success?
    ensures UnpackTokenAsWritten(address, Some(info), programId, decode).Success? ==>
      UnpackTokenAsWritten(address, Some(info), programId, decode) == UnpackToken(address, Some(info), programId, decode)
  {
    if |info.data| >= AccountSize {
      assert decode(info.data) == decode(info.data[..AccountSize]);
    }
  }

  // ---------------------------------------------------------------------------
  // Dropping missing entries

  /** `.filter(utils.notNull)`: the present values, in order. */
  function NotNull<T>(xs: seq<Option<T>>): (r: seq<T>)
    ensures |r| <= |xs|
    ensures forall i :: 0 <= i < |r| ==> Some(r[i]) in xs
    ensures (forall i :: 0 <= i < |xs| ==> xs[i].Some?) ==> |r| == |xs|
  {
    if xs == [] then []
    else
      var rest := NotNull(xs[1..]);
      assert forall i :: 0 <= i < |rest| ==> Some(rest[i]) in xs by {
        forall i | 0 <= i < |rest| ensures Some(rest[i]) in xs {
          assert Some(rest[i]) in xs[1..];
        }
      }
      match xs[0]
      case Some(x) => [x] + rest
      case None => rest
  }

  /** Filtering distributes over concatenation, so it keeps relative order. */
  lemma {:induction false} NotNullConcat<T>(xs: seq<Option<T>>, ys: seq<Option<T>>)
    ensures NotNull(xs + ys) == NotNull(xs) + NotNull(ys)
  {
    if xs == [] {
      assert xs + ys == ys;
    } else {
      assert (xs + ys)[1..] == xs[1..] + ys;
      NotNullConcat(xs[1..], ys);
    }
  }

  /** Every present value survives: the result holds each `Some` of the input. */
  lemma {:induction false} NotNullKeepsPresent<T>(xs: seq<Option<T>>, i: nat)
    requires i < |xs| && xs[i].Some?
    ensures xs[i].value in NotNull(xs)
  {
    if i > 0 {
      NotNullKeepsPresent(xs[1..], i - 1);
    }
  }

  // ---------------------------------------------------------------------------
  // Metadata accounts

  /** `fetchMetadataAccounts(mints)`: read the account at each mint's metadata
      address and parse the ones that exist. */
  function FetchMetadataAccounts(
    derive: Derive,
    accountAt: PublicKey -> Option<AccountInfo>,
    parse: AccountInfo -> TokenMetadata.Metadata,
    mints: seq<PublicKey>): (r: seq<TokenMetadata.Metadata>)
    ensures |r| <= |mints|
    ensures forall m :: m in r ==>
      exists i :: 0 <= i < |mints| && accountAt(FindMetadataAddress(derive, mints[i])).Some? &&
        m == parse(accountAt(FindMetadataAddress(derive, mints[i])).value)
    ensures forall i :: 0 <= i < |mints| && accountAt(FindMetadataAddress(derive, mints[i])).Some? ==>
              parse(accountAt(FindMetadataAddress(derive, mints[i])).value) in r
  {
    var raw := seq(|mints|, i requires 0 <= i < |mints| =>
      var info := accountAt(FindMetadataAddress(derive, mints[i]));
      if info.Some? then Some(parse(info.value)) else None);
    var r := NotNull(raw);
    forall i | 0 <= i < |mints| && accountAt(FindMetadataAddress(derive, mints[i])).Some?
      ensures parse(accountAt(FindMetadataAddress(derive, mints[i])).value) in r
    {
      NotNullKeepsPresent(raw, i);
    }
    r
  }

  // ---------------------------------------------------------------------------
  // Wallet NFTs

  /** `NftResult`: an NFT's metadata with the token account holding it. */
  datatype NftResult = NftResult(metadata: TokenMetadata.Metadata, tokenAccount: TokenAccount)

  /** `tokenAccounts.find(a => a.mint.equals(mint))`: the first holder. */
  function FindByMint(accounts: seq<TokenAccount>, mint: PublicKey): (r: Option<TokenAccount>)
    ensures r.Some? <==> exists i :: 0 <= i < |accounts| && accounts[i].mint == mint
    ensures r.Some? ==> r.value in accounts && r.value.mint == mint
    ensures r.Some? ==> exists i :: 0 <= i < |accounts| && r.value == accounts[i]
                          && forall j :: 0 <= j < i ==> accounts[j].mint != mint
  {
    if accounts == [] then None
    else if accounts[0].mint == mint then Some(accounts[0])
    else FindByMint(accounts[1..], mint)
  }

  /** Whether the metadata belongs to a whitelisted collection. */
  predicate InCollection(metadata: TokenMetadata.Metadata, collectionMints: seq<PublicKey>) {
    metadata.collection.Some? && metadata.collection.value.key in collectionMints
  }

  /** The per-NFT step of `fetchNfts`: keep the pair when a token account
      holds the mint and the collection is whitelisted; an empty or frozen
      account is kept only when a token manager exists for it. */
  function CombineNft(
    metadata: TokenMetadata.Metadata,
    tokenAccounts: seq<TokenAccount>,
    collectionMints: seq<PublicKey>,
    hasTokenManager: PublicKey -> bool): (r: Option<NftResult>)
    ensures r.Some? <==>
      && FindByMint(tokenAccounts, metadata.mint).Some?
      && InCollection(metadata, collectionMints)
      && var t := FindByMint(tokenAccounts, metadata.mint).value;
         (t.amount == 0 || t.isFrozen ==> hasTokenManager(t.mint))
    ensures r.Some? ==> r.value.metadata == metadata && r.value.tokenAccount in tokenAccounts
  {
    match FindByMint(tokenAccounts, metadata.mint)
    case None => None
    case Some(t) =>
      if InCollection(metadata, collectionMints) then
        if (t.amount == 0 || t.isFrozen) && !hasTokenManager(t.mint) then None
        else Some(NftResult(metadata, t))
      else None
  }

  /** The file's own `unpackToken` (decode first) over the owner's raw
      accounts: the first failure rejects the whole batch. */
  function UnpackAll(raw: seq<(PublicKey, AccountInfo)>, decode: Decode): (r: Result<seq<TokenAccount>, TokenError>)
    ensures r.Success? ==> |r.value| == |raw|
    ensures r.Success? ==> forall i :: 0 <= i < |raw| ==>
      UnpackTokenAsWritten(raw[i].0, Some(raw[i].1), TokenProgramId, decode) == Success(r.value[i])
    ensures r.Failure? ==> exists i :: 0 <= i < |raw| && UnpackTokenAsWritten(raw[i].0, Some(raw[i].1), TokenProgramId, decode).Failure?
  {
    if raw == [] then Success([])
    else
      var head :- UnpackTokenAsWritten(raw[0].0, Some(raw[0].1), TokenProgramId, decode);
      var tail :- UnpackAll(raw[1..], decode);
      Success([head] + tail)
  }

  /** The combining step of `fetchNfts` over all fetched metadata, nulls
      dropped. */
  function CombineAll(
    metadataAccounts: seq<TokenMetadata.Metadata>,
    tokenAccounts: seq<TokenAccount>,
    collectionMints: seq<PublicKey>,
    hasTokenManager: PublicKey -> bool): (r: seq<NftResult>)
    ensures |r| <= |metadataAccounts|
    ensures forall n :: n in r ==>
      && n.metadata in metadataAccounts
      && n.tokenAccount in tokenAccounts
      && InCollection(n.metadata, collectionMints)
      && n.tokenAccount.mint == n.metadata.mint
  {
    var combined := seq(|metadataAccounts|, i requires 0 <= i < |metadataAccounts| =>
      CombineNft(metadataAccounts[i], tokenAccounts, collectionMints, hasTokenManager));
    var r := NotNull(combined);
    forall n | n in r
      ensures n.metadata in metadataAccounts && n.tokenAccount in tokenAccounts
      ensures InCollection(n.metadata, collectionMints) && n.tokenAccount.mint == n.metadata.mint
    {
      var i :| 0 <= i < |r| && r[i] == n;
      var j :| 0 <= j < |combined| && combined[j] == Some(n);
      assert n.metadata == metadataAccounts[j];
    }
    r
  }

  /** `fetchNfts(owner)`: unpack the owner's token accounts, fetch the
      metadata of their mints, and keep the whitelisted NFTs. */
  function FetchNfts(
    collectionMints: seq<PublicKey>,
    rawTokenAccounts: seq<(PublicKey, AccountInfo)>,
    decode: Decode,
    derive: Derive,
    accountAt: PublicKey -> Option<AccountInfo>,
    parse: AccountInfo -> TokenMetadata.Metadata,
    hasTokenManager: PublicKey -> bool): (r: Result<seq<NftResult>, TokenError>)
    ensures r.Success? ==> |r.value| <= |rawTokenAccounts|
    ensures r.Success? ==> forall n :: n in r.value ==>
      InCollection(n.metadata, collectionMints) && n.tokenAccount.mint == n.metadata.mint
    ensures r.Failure? <==>
      exists i :: 0 <= i < |rawTokenAccounts| && UnpackTokenAsWritten(rawTokenAccounts[i].0, Some(rawTokenAccounts[i].1), TokenProgramId, decode).Failure?
  {
    var tokenAccounts :- UnpackAll(rawTokenAccounts, decode);
    var mints := seq(|tokenAccounts|, i requires 0 <= i < |tokenAccounts| => tokenAccounts[i].mint);
    var metadataAccounts := FetchMetadataAccounts(derive, accountAt, parse, mints);
    Success(CombineAll(metadataAccounts, tokenAccounts, collectionMints, hasTokenManager))
  }
}

=== FILE: query_loan.dfy ===
/** Loan queries: the seeds of a loan's program address, and the fetch of
    all loans, which sorts the listings by amount, pairs each with its NFT
    metadata and drops those without. Program-address derivation and the
    metadata reads are function parameters. */
module QueryLoan {
  import opened Wrappers
  import opened Keys
  import QueryCommon
  import TokenMetadata

  // ---------------------------------------------------------------------------
  // Loan address

  const LoanSeed: seq<Byte> := AsciiBytes("loan")

  /** The seeds of `findLoanAddress(mint, borrower)`, in this order. */
  function LoanSeeds(mint: PublicKey, borrower: PublicKey): (seeds: QueryCommon.Seeds)
    ensures |seeds| == 3 && seeds[0] == LoanSeed
    ensures seeds[1] == ToBuffer(mint) && seeds[2] == ToBuffer(borrower)
  {
    [LoanSeed, ToBuffer(mint), ToBuffer(borrower)]
  }

  /** `findLoanAddress`: the derived address under the listings program; the
      bump is discarded. */
  function FindLoanAddress(derive: QueryCommon.Derive, listingsProgramId: PublicKey, mint: PublicKey, borrower: PublicKey): PublicKey {
    derive(LoanSeeds(mint, borrower), listingsProgramId).0
  }

  /** The seeds determine the mint and the borrower, in that order, and are
      never the seeds of a metadata account. */
  lemma LoanSeedsInjective(mint: PublicKey, borrower: PublicKey, mint2: PublicKey, borrower2: PublicKey, nft: PublicKey)
    ensures LoanSeeds(mint, borrower) == LoanSeeds(mint2, borrower2) <==> mint == mint2 && borrower == borrower2
    ensures mint != borrower ==> LoanSeeds(mint, borrower) != LoanSeeds(borrower, mint)
    ensures LoanSeeds(mint, borrower) != QueryCommon.MetadataSeeds(nft)
  {
    if LoanSeeds(mint, borrower) == LoanSeeds(mint2, borrower2) {
      assert LoanSeeds(mint, borrower)[1] == LoanSeeds(mint2, borrower2)[1];
      assert LoanSeeds(mint, borrower)[2] == LoanSeeds(mint2, borrower2)[2];
      ToBufferInjective(mint, mint2);
      ToBufferInjective(borrower, borrower2);
    }
    if mint != borrower {
      ToBufferInjective(mint, borrower);
      assert LoanSeeds(mint, borrower)[1] != LoanSeeds(borrower, mint)[1];
    }
    assert |LoanSeed| != |QueryCommon.MetadataSeed|;
  }

  // ---------------------------------------------------------------------------
  // Fetched loans

  /** The on-chain loan state (three variants, unlike the database's five). */
  datatype OnChainLoanState = Listed | Active | Defaulted

  /** The `loan` account. */
  datatype LoanAccount = LoanAccount(
    state: OnChainLoanState,
    amount: nat,
    borrower: PublicKey,
    lender: PublicKey,
    basisPoints: nat,
    duration: nat,
    startDate: int,
    mint: PublicKey,
    bump: nat)

  /** One result of `program.account.loan.all()`. */
  datatype Listing = Listing(publicKey: PublicKey, account: LoanAccount)

  /** A combined loan: the listing's address and account with its metadata. */
  datatype LoanRecord = LoanRecord(publicKey: PublicKey, account: LoanAccount, metadata: TokenMetadata.Metadata)

  predicate SortedByAmount(listings: seq<Listing>) {
    forall i, j :: 0 <= i < j < |listings| ==> listings[i].account.amount <= listings[j].account.amount
  }

  /** A listing no larger than every element of a sorted list can go in front. */
  lemma ConsSorted(h: Listing, t: seq<Listing>)
    requires SortedByAmount(t)
    requires forall i :: 0 <= i < |t| ==> h.account.amount <= t[i].account.amount
    ensures SortedByAmount([h] + t)
  {
  }

  /** Inserts into a sorted list, in front of the first listing of equal or
      greater amount. */
  function Insert(x: Listing, sorted: seq<Listing>): (r: seq<Listing>)
    requires SortedByAmount(sorted)
    ensures SortedByAmount(r)
    ensures multiset(r) == multiset(sorted) + multiset{x}
  {
    if sorted == [] then [x]
    else
      var h, t := sorted[0], sorted[1..];
      assert sorted == [h] + t;
      if x.account.amount <= h.account.amount then
        ConsSorted(x, sorted);
        [x] + sorted
      else
        var rest := Insert(x, t);
        assert forall i :: 0 <= i < |t| ==> t[i] == sorted[i + 1];
        LowerBoundKept(h, t, x, rest);
        ConsSorted(h, rest);
        [h] + rest
  }

  /** A lower bound of a list and of `x` bounds any rearrangement of the
      list with `x` added. */
  lemma LowerBoundKept(h: Listing, t: seq<Listing>, x: Listing, r: seq<Listing>)
    requires multiset(r) == multiset(t) + multiset{x}
    requires h.account.amount <= x.account.amount
    requires forall i :: 0 <= i < |t| ==> h.account.amount <= t[i].account.amount
    ensures forall i :: 0 <= i < |r| ==> h.account.amount <= r[i].account.amount
  {
    forall i | 0 <= i < |r|
      ensures h.account.amount <= r[i].account.amount
    {
      assert r[i] in multiset(r);
      if r[i] != x {
        assert r[i] in multiset(t);
        var j :| 0 <= j < |t| && t[j] == r[i];
      }
    }
  }

  /** The `sort` of the fetched listings by ascending amount: the same
      listings, in non-decreasing order of amount. */
  function SortByAmount(listings: seq<Listing>): (r: seq<Listing>)
    ensures SortedByAmount(r)
    ensures multiset(r) == multiset(listings)
  {
    if listings == [] then []
    else
      assert listings == [listings[0]] + listings[1..];
      Insert(listings[0], SortByAmount(listings[1..]))
  }

  /** The listings of one amount, in their order. */
  function WithAmount(listings: seq<Listing>, amount: nat): (r: seq<Listing>)
    ensures forall i :: 0 <= i < |r| ==> r[i].account.amount == amount
  {
    if listings == [] then []
    else (if listings[0].account.amount == amount then [listings[0]] else []) + WithAmount(listings[1..], amount)
  }

  lemma WithAmountCons(h: Listing, rest: seq<Listing>, amount: nat)
    ensures WithAmount([h] + rest, amount) == (if h.account.amount == amount then [h] else []) + WithAmount(rest, amount)
  {
    assert ([h] + rest)[1..] == rest;
  }

  /** Inserting into a sorted list puts the listing in front of every
      listing of its amount already there. */
  lemma {:induction false} InsertWithAmount(x: Listing, sorted: seq<Listing>, amount: nat)
    requires SortedByAmount(sorted)
    ensures WithAmount(Insert(x, sorted), amount)
         == (if x.account.amount == amount then [x] else []) + WithAmount(sorted, amount)
  {
    var px := if x.account.amount == amount then [x] else [];
    if sorted == [] {
      WithAmountCons(x, [], amount);
      assert [x] + [] == [x];
    } else if x.account.amount <= sorted[0].account.amount {
      InsertFront(x, sorted);
      WithAmountCons(x, sorted, amount);
    } else {
      var h, t := sorted[0], sorted[1..];
      InsertBehind(x, sorted);
      var rest := Insert(x, t);
      InsertWithAmount(x, t, amount);
      var ph := if h.account.amount == amount then [h] else [];
      WithAmountCons(h, rest, amount);
      WithAmountCons(h, t, amount);
      assert sorted == [h] + t;
      SwapEmpty(ph, px, WithAmount(t, amount));
    }
  }

  /** Two pieces of which at least one is empty commute. */
  lemma SwapEmpty(a: seq<Listing>, b: seq<Listing>, w: seq<Listing>)
    requires a == [] || b == []
    ensures a + (b + w) == b + (a + w)
  {
    if a == [] {
      assert a + (b + w) == b + w;
      assert a + w == w;
    } else {
      assert b + w == w;
      assert b + (a + w) == a + w;
    }
  }

  /** The first step of `Insert` when the listing goes in front. */
  lemma InsertFront(x: Listing, sorted: seq<Listing>)
    requires SortedByAmount(sorted) && sorted != [] && x.account.amount <= sorted[0].account.amount
    ensures Insert(x, sorted) == [x] + sorted
  {
  }

  /** The first step of `Insert` when the listing goes behind the head. */
  lemma InsertBehind(x: Listing, sorted: seq<Listing>)
    requires SortedByAmount(sorted) && sorted != [] && x.account.amount > sorted[0].account.amount
    ensures SortedByAmount(sorted[1..])
    ensures Insert(x, sorted) == [sorted[0]] + Insert(x, sorted[1..])
  {
  }

  /** The sort is stable: listings of equal amount keep their input order,
      as `Array.prototype.sort` keeps them. */
  lemma {:induction false} SortByAmountStable(listings: seq<Listing>, amount: nat)
    ensures WithAmount(SortByAmount(listings), amount) == WithAmount(listings, amount)
  {
    if listings != [] {
      SortByAmountStable(listings[1..], amount);
      InsertWithAmount(listings[0], SortByAmount(listings[1..]), amount);
    }
  }

  /** The metadata read for a listing, or None when the account is missing. */
  type MetadataOf = Listing -> Option<TokenMetadata.Metadata>

  /** The record describes the listing: its address and account, with the
      metadata read for it. */
  predicate Describes(rec: LoanRecord, l: Listing, metadataOf: MetadataOf) {
    metadataOf(l) == Some(rec.metadata) && rec.publicKey == l.publicKey && rec.account == l.account
  }

  /** The per-listing step: `new Loan(listing.account, metadata, listing.publicKey).pretty()`,
      or null without metadata. The record stands for the printed loan: it
      holds the fields the `Loan` object is built from. */
  function LoanOf(l: Listing, metadataOf: MetadataOf): (r: Option<LoanRecord>)
    ensures r.Some? <==> metadataOf(l).Some?
    ensures r.Some? ==> Describes(r.value, l, metadataOf)
  {
    match metadataOf(l)
    case None => None
    case Some(m) => Some(LoanRecord(l.publicKey, l.account, m))
  }

  predicate RecordsSorted(r: seq<LoanRecord>) {
    forall k, l :: 0 <= k < l < |r| ==> r[k].account.amount <= r[l].account.amount
  }

  /** Pairs every listing with the metadata read for it, dropping listings
      without metadata, in the listings' order. */
  function CombineLoans(listings: seq<Listing>, metadataOf: MetadataOf): (r: seq<LoanRecord>)
    ensures |r| <= |listings|
  {
    if listings == [] then []
    else
      var rest := CombineLoans(listings[1..], metadataOf);
      match LoanOf(listings[0], metadataOf)
      case Some(rec) => [rec] + rest
      case None => rest
  }

  /** Every combined loan describes one of the listings. */
  lemma {:induction false} CombineLoansSound(listings: seq<Listing>, metadataOf: MetadataOf)
    ensures forall rec :: rec in CombineLoans(listings, metadataOf) ==> exists l :: l in listings && Describes(rec, l, metadataOf)
  {
    if listings != [] {
      CombineLoansSound(listings[1..], metadataOf);
      assert forall l :: l in listings[1..] ==> l in listings;
    }
  }

  /** Every listing with metadata gives a combined loan. */
  lemma {:induction false} CombineLoansComplete(listings: seq<Listing>, metadataOf: MetadataOf)
    ensures forall l :: l in listings && metadataOf(l).Some? ==> LoanOf(l, metadataOf).value in CombineLoans(listings, metadataOf)
  {
    if listings != [] {
      CombineLoansComplete(listings[1..], metadataOf);
      assert forall l :: l in listings ==> l == listings[0] || l in listings[1..];
    }
  }

  /** Sorted listings give sorted loans. */
  lemma {:induction false} CombineLoansSorted(listings: seq<Listing>, metadataOf: MetadataOf)
    requires SortedByAmount(listings)
    ensures RecordsSorted(CombineLoans(listings, metadataOf))
  {
    if listings != [] {
      var t := listings[1..];
      assert SortedByAmount(t);
      CombineLoansSorted(t, metadataOf);
      CombineLoansSound(t, metadataOf);
      RecordsAbove(listings, CombineLoans(t, metadataOf), metadataOf);
      if LoanOf(listings[0], metadataOf).Some? {
        ConsRecordsSorted(LoanOf(listings[0], metadataOf).value, CombineLoans(t, metadataOf));
      }
    }
  }

  /** A record no larger than every record of a sorted list can go in front. */
  lemma ConsRecordsSorted(rec: LoanRecord, rest: seq<LoanRecord>)
    requires RecordsSorted(rest)
    requires forall other :: other in rest ==> rec.account.amount <= other.account.amount
    ensures RecordsSorted([rec] + rest)
  {
    var r := [rec] + rest;
    forall k, l | 0 <= k < l < |r|
      ensures r[k].account.amount <= r[l].account.amount
    {
      assert r[l] == rest[l - 1];
      if k > 0 {
        assert r[k] == rest[k - 1];
      } else {
        assert r[l] in rest;
      }
    }
  }

  /** In sorted listings the records built from the tail are no smaller
      than the head. */
  lemma RecordsAbove(listings: seq<Listing>, rest: seq<LoanRecord>, metadataOf: MetadataOf)
    requires listings != []
    requires forall rec :: rec in rest ==> exists l :: l in listings[1..] && Describes(rec, l, metadataOf)
    ensures SortedByAmount(listings) ==> forall rec :: rec in rest ==> listings[0].account.amount <= rec.account.amount
  {
    if SortedByAmount(listings) {
      forall rec | rec in rest
        ensures listings[0].account.amount <= rec.account.amount
      {
        var l :| l in listings[1..] && Describes(rec, l, metadataOf);
        var j :| 0 <= j < |listings[1..]| && listings[1..][j] == l;
        assert listings[j + 1] == l;
      }
    }
  }

  /** `fetchMultipleLoans` with each listing paired with its own metadata:
      the loans with metadata, in non-decreasing order of amount. */
  function FetchMultipleLoans(listings: seq<Listing>, metadataOf: MetadataOf): (r: seq<LoanRecord>)
    ensures |r| <= |listings|
    ensures RecordsSorted(r)
    ensures forall rec :: rec in r ==> exists l :: l in listings && Describes(rec, l, metadataOf)
    ensures forall l :: l in listings && metadataOf(l).Some? ==> LoanOf(l, metadataOf).value in r
  {
    var sorted := SortByAmount(listings);
    assert |sorted| == |multiset(sorted)| == |multiset(listings)| == |listings|;
    assert forall l :: l in sorted <==> l in multiset(sorted);
    assert forall l :: l in listings <==> l in multiset(listings);
    CombineLoansSound(sorted, metadataOf);
    CombineLoansComplete(sorted, metadataOf);
    CombineLoansSorted(sorted, metadataOf);
    CombineLoans(sorted, metadataOf)
  }

  /** The pairing step as written: the metadata list has had its nulls
      removed, and the i-th listing takes its i-th element. */
  function PairByIndex(sorted: seq<Listing>, metadataAccounts: seq<TokenMetadata.Metadata>): (r: seq<Option<LoanRecord>>)
    ensures |r| == |sorted|
    ensures forall i :: 0 <= i < |sorted| ==> (r[i].Some? <==> i < |metadataAccounts|)
  {
    seq(|sorted|, i requires 0 <= i < |sorted| =>
      if i < |metadataAccounts| then Some(LoanRecord(sorted[i].publicKey, sorted[i].account, metadataAccounts[i])) else None)
  }

  /** The metadata read for each listing, nulls included. */
  function MetadataList(sorted: seq<Listing>, metadataOf: MetadataOf): (r: seq<Option<TokenMetadata.Metadata>>)
    ensures |r| == |sorted|
    ensures forall i :: 0 <= i < |sorted| ==> r[i] == metadataOf(sorted[i])
  {
    seq(|sorted|, i requires 0 <= i < |sorted| => metadataOf(sorted[i]))
  }

  /** What `fetchMetadataAccounts` is handed: the mints it expects, or, as
      `fetchMultipleLoans` passes them, the listing records themselves. */
  datatype MintArgument = MintKey(key: PublicKey) | ListingRecord(listing: Listing)

  /** The error a fetch rejects with: `mint.toBuffer` is not a function. */
  datatype FetchError = TypeError

  /** `mint.toBuffer()` in `findMetadataAddress`: a key gives its bytes; a
      listing record has no `toBuffer`, so the derivation's promise rejects. */
  function MintBuffer(arg: MintArgument): (r: Result<seq<Byte>, FetchError>)
    ensures r.Success? <==> arg.MintKey?
    ensures arg.MintKey? ==> r == Success(ToBuffer(arg.key))
  {
    match arg
    case MintKey(key) => Success(ToBuffer(key))
    case ListingRecord(_) => Failure(TypeError)
  }

  /** `Promise.all` over the derivations: every argument's bytes, or the
      rejection as soon as one argument is not a key. */
  function MintBuffers(args: seq<MintArgument>): (r: Result<seq<seq<Byte>>, FetchError>)
    ensures r.Success? <==> forall i :: 0 <= i < |args| ==> args[i].MintKey?
    ensures r.Success? ==> |r.value| == |args| && forall i :: 0 <= i < |args| ==> r.value[i] == ToBuffer(args[i].key)
  {
    if args == [] then Success([])
    else
      var b :- MintBuffer(args[0]);
      var rest :- MintBuffers(args[1..]);
      assert forall i :: 1 <= i < |args| ==> args[i] == args[1..][i - 1];
      Success([b] + rest)
  }

  /** `fetchMultipleLoans` as written: the sorted listing records go to
      `fetchMetadataAccounts` in place of their mints, so the fetch rejects
      for every non-empty listing set; with no listings it returns none. */
  function FetchMultipleLoansAsWritten(listings: seq<Listing>, metadataOf: MetadataOf): (r: Result<seq<LoanRecord>, FetchError>)
    ensures r.Failure? <==> listings != []
    ensures r.Failure? ==> r.error == TypeError
    ensures r.Success? ==> r.value == []
  {
    var sorted := SortByAmount(listings);
    assert |sorted| == |multiset(sorted)| == |multiset(listings)| == |listings|;
    var args := seq(|sorted|, i requires 0 <= i < |sorted| => ListingRecord(sorted[i]));
    var _ :- MintBuffers(args);
    Success(FetchMultipleLoansByIndex(listings, metadataOf))
  }

  /** `fetchMultipleLoans` once the mints are passed, with the pairing as
      written: the metadata list has had its nulls removed, and the i-th
      sorted listing takes its i-th element. */
  function FetchMultipleLoansByIndex(listings: seq<Listing>, metadataOf: MetadataOf): (r: seq<LoanRecord>)
    ensures |r| <= |listings|
  {
    var sorted := SortByAmount(listings);
    assert |sorted| == |multiset(sorted)| == |multiset(listings)| == |listings|;
    var metadataAccounts := QueryCommon.NotNull(MetadataList(sorted, metadataOf));
    QueryCommon.NotNull(PairByIndex(sorted, metadataAccounts))
  }

  lemma {:induction false} NotNullAllPresent<T>(xs: seq<Option<T>>)
    requires forall i :: 0 <= i < |xs| ==> xs[i].Some?
    ensures |QueryCommon.NotNull(xs)| == |xs|
    ensures forall i :: 0 <= i < |xs| ==> QueryCommon.NotNull(xs)[i] == xs[i].value
  {
    if xs != [] {
      var t := xs[1..];
      assert forall i :: 0 <= i < |t| ==> t[i] == xs[i + 1];
      NotNullAllPresent(t);
      var r := QueryCommon.NotNull(xs);
      assert r == [xs[0].value] + QueryCommon.NotNull(t);
      forall i | 0 <= i < |xs| ensures r[i] == xs[i].value {
        if i > 0 {
          assert r[i] == QueryCommon.NotNull(t)[i - 1];
        }
      }
    }
  }


  lemma {:induction false} CombineAllPresent(listings: seq<Listing>, metadataOf: MetadataOf)
    requires forall i :: 0 <= i < |listings| ==> metadataOf(listings[i]).Some?
    ensures |CombineLoans(listings, metadataOf)| == |listings|
    ensures forall i :: 0 <= i < |listings| ==> CombineLoans(listings, metadataOf)[i] == LoanOf(listings[i], metadataOf).value
  {
    if listings != [] {
      var t := listings[1..];
      assert forall i :: 0 <= i < |t| ==> t[i] == listings[i + 1];
      CombineAllPresent(t, metadataOf);
      var r := CombineLoans(listings, metadataOf);
      assert LoanOf(listings[0], metadataOf).Some?;
      assert r == [LoanOf(listings[0], metadataOf).value] + CombineLoans(t, metadataOf);
      forall i | 0 <= i < |listings| ensures r[i] == LoanOf(listings[i], metadataOf).value {
        if i > 0 {
          assert r[i] == CombineLoans(t, metadataOf)[i - 1];
        }
      }
    }
  }


  /** On sorted listings that all have metadata, pairing by index is pairing
      each listing with its own metadata. */
  lemma AgreeOnSorted(sorted: seq<Listing>, metadataOf: MetadataOf)
    requires forall i :: 0 <= i < |sorted| ==> metadataOf(sorted[i]).Some?
    ensures QueryCommon.NotNull(PairByIndex(sorted, QueryCommon.NotNull(MetadataList(sorted, metadataOf)))) == CombineLoans(sorted, metadataOf)
  {
    var raw := MetadataList(sorted, metadataOf);
    NotNullAllPresent(raw);
    var metadataAccounts := QueryCommon.NotNull(raw);
    var pairs := PairByIndex(sorted, metadataAccounts);
    NotNullAllPresent(pairs);
    CombineAllPresent(sorted, metadataOf);
    var asWritten := QueryCommon.NotNull(pairs);
    var combined := CombineLoans(sorted, metadataOf);
    forall i | 0 <= i < |sorted| ensures asWritten[i] == combined[i] {
      assert metadataAccounts[i] == metadataOf(sorted[i]).value;
    }
  }


  /** When every listing has metadata, the pairing by index returns the same
      loans as the per-listing pairing. */
  lemma ByIndexAgreesWithoutGaps(listings: seq<Listing>, metadataOf: MetadataOf)
    requires forall l :: l in listings ==> metadataOf(l).Some?
    ensures FetchMultipleLoansByIndex(listings, metadataOf) == FetchMultipleLoans(listings, metadataOf)
  {
    var sorted := SortByAmount(listings);
    forall i | 0 <= i < |sorted| ensures metadataOf(sorted[i]).Some? {
      assert sorted[i] in multiset(listings);
    }
    AgreeOnSorted(sorted, metadataOf);
  }

  /** Two listings, only the second with metadata. As written the fetch
      rejects; with the mints passed, one listing without metadata shifts the
      metadata list, so the first listing is given the second listing's
      metadata and the second listing is dropped; pairing each listing with
      its own metadata keeps the second. */
  lemma MisalignedMetadata(first: Listing, second: Listing, m: TokenMetadata.Metadata)
    requires first.account.amount < second.account.amount
    ensures var metadataOf := (l: Listing) => if l == second then Some(m) else None;
      && FetchMultipleLoansAsWritten([first, second], metadataOf) == Failure(TypeError)
      && FetchMultipleLoansByIndex([first, second], metadataOf) == [LoanRecord(first.publicKey, first.account, m)]
      && FetchMultipleLoans([first, second], metadataOf) == [LoanRecord(second.publicKey, second.account, m)]
  {
    var metadataOf := (l: Listing) => if l == second then Some(m) else None;
    SortTwo(first, second);
    ShiftedPairing(first, second, m, metadataOf);
    assert CombineLoans([second], metadataOf) == [LoanRecord(second.publicKey, second.account, m)] by {
      assert [second][1..] == [];
    }
    assert [first, second][1..] == [second];
  }

  /** Two listings of increasing amount are already sorted. */
  lemma SortTwo(first: Listing, second: Listing)
    requires first.account.amount < second.account.amount
    ensures SortByAmount([first, second]) == [first, second]
  {
    assert [first, second][1..] == [second];
    assert SortByAmount([second]) == [second] by {
      assert [second][1..] == [];
    }
  }

  /** The metadata list of the two listings has one gap, so the only
      metadata account is paired with the first listing. */
  lemma ShiftedPairing(first: Listing, second: Listing, m: TokenMetadata.Metadata, metadataOf: MetadataOf)
    requires first != second && metadataOf(first).None? && metadataOf(second) == Some(m)
    ensures QueryCommon.NotNull(PairByIndex([first, second], QueryCommon.NotNull(MetadataList([first, second], metadataOf))))
      == [LoanRecord(first.publicKey, first.account, m)]
  {
    var raw := MetadataList([first, second], metadataOf);
    assert raw == [None, Some(m)];
    assert QueryCommon.NotNull(raw) == [m] by {
      assert raw[1..] == [Some(m)];
      assert raw[1..][1..] == [];
    }
    var pairs := PairByIndex([first, second], [m]);
    assert pairs == [Some(LoanRecord(first.publicKey, first.account, m)), None];
    assert QueryCommon.NotNull(pairs) == [LoanRecord(first.publicKey, first.account, m)] by {
      assert pairs[1..] == [None];
      assert pairs[1..][1..] == [];
    }
  }
}

=== FILE: tables.dfy ===
/** The sort state and column comparators of the loan tables. A comparator
    returns a number whose sign orders two rows, as `Array.prototype.sort`
    expects; a direction of -1 swaps the two rows before comparing. */
module Tables {
  import opened Wrappers
  import Utils

  /** The sortable columns; `Unlisted` stands for any other name, which the
      dispatch sends to its default branch. */
  datatype SortCol = Duration | Ltv | Apy | Amount | Unlisted(name: string)

  /** `LoanSortState`: the column and a direction (1 ascending, -1 descending). */
  datatype SortState = SortState(col: SortCol, direction: int)

  /** `sortReducer(col)(state)`: clicking the current column flips the
      direction; clicking another column sorts it ascending. */
  function SortReducer(col: SortCol, state: SortState): (r: SortState)
    ensures r.col == col
    ensures state.col == col ==> r.direction == -state.direction
    ensures state.col != col ==> r.direction == 1
  {
    if state.col == col then SortState(state.col, state.direction * -1) else SortState(col, 1)
  }

  /** Clicking the same column twice restores the state. */
  lemma SortReducerTwice(col: SortCol, state: SortState)
    ensures SortReducer(col, SortReducer(col, state)).col == col
    ensures state.col == col ==> SortReducer(col, SortReducer(col, state)) == state
    ensures state.col != col ==> SortReducer(col, SortReducer(col, state)) == SortState(col, -1)
  {
  }

  /** Starting from a direction of 1 or -1, any sequence of clicks keeps the
      direction at 1 or -1. */
  lemma {:induction false} SortReducerDirection(clicks: seq<SortCol>, state: SortState)
    requires state.direction == 1 || state.direction == -1
    ensures var r := Clicks(clicks, state); r.direction == 1 || r.direction == -1
  {
    if clicks != [] {
      SortReducerDirection(clicks[1..], SortReducer(clicks[0], state));
    }
  }

  /** The state after a sequence of clicks, first click first. */
  function Clicks(clicks: seq<SortCol>, state: SortState): SortState
    decreases |clicks|
  {
    if clicks == [] then state else Clicks(clicks[1..], SortReducer(clicks[0], state))
  }

  /** What the comparators read of a `Loan` or `LoanOffer`: the amount (a
      missing BN is falsy, a present one, zero included, is truthy), the
      basis points, the duration and the NFT's on-chain symbol. */
  datatype Row = Row(amount: Option<int>, basisPoints: int, duration: int, symbol: Option<string>)

  /** The comparator closures `compareBy` hands out, one per column; `Always1`
      is the default branch's `() => 1`. */
  datatype Comparator =
    | ByDuration(direction: int)
    | ByLtv(direction: int, floorPrices: Option<map<string, real>>)
    | ByBasisPoints(direction: int)
    | ByAmount(direction: int)
    | Always1

  /** `compareBy(sortCol, direction, floorPrices)`. */
  function CompareBy(col: SortCol, direction: int, floorPrices: Option<map<string, real>>): (c: Comparator)
    ensures col == Duration <==> c == ByDuration(direction)
    ensures col == Ltv <==> c == ByLtv(direction, floorPrices)
    ensures col == Apy <==> c == ByBasisPoints(direction)
    ensures col == Amount <==> c == ByAmount(direction)
    ensures col.Unlisted? <==> c == Always1
  {
    match col
    case Duration => ByDuration(direction)
    case Ltv => ByLtv(direction, floorPrices)
    case Apy => ByBasisPoints(direction)
    case Amount => ByAmount(direction)
    case Unlisted(_) => Always1
  }

  /** `args.reverse()` when the direction is -1: the pair actually compared. */
  function Oriented(direction: int, a: Row, b: Row): (p: (Row, Row))
    ensures direction == -1 ==> p == (b, a)
    ensures direction != -1 ==> p == (a, b)
  {
    if direction == -1 then (b, a) else (a, b)
  }

  /** `sortByAmount` after orientation: a missing first amount sorts first, a
      missing second amount sorts the first after it, else the difference. */
  function AmountOrder(x: Row, y: Row): (r: int)
    ensures x.amount.None? ==> r == -1
    ensures x.amount.Some? && y.amount.None? ==> r == 1
    ensures x.amount.Some? && y.amount.Some? ==> r + y.amount.value == x.amount.value
  {
    match (x.amount, y.amount)
    case (Some(p), Some(q)) => p - q
    case (Some(_), None) => 1
    case (None, _) => -1
  }

  /** A floor price `sortByLTV` can use: present and non-zero (zero is falsy). */
  predicate UsablePrice(price: Option<real>) {
    price.Some? && price.value != 0.0
  }

  /** The loan-to-value ratio in percent, with exact division. */
  function LoanToValue(amount: int, price: real): (ltv: real)
    requires price != 0.0
    ensures ltv * price == amount as real * 100.0
  {
    amount as real / price * 100.0
  }

  /** `sortByLTV` after orientation: -1 without a price table, or when either
      row lacks a usable floor price or an amount; otherwise the difference
      of the two ratios. */
  function LtvOrder(floorPrices: Option<map<string, real>>, x: Row, y: Row): (r: real)
    ensures floorPrices.None? ==> r == -1.0
    ensures !UsablePrice(Utils.GetFloorPrice(floorPrices, x.symbol)) ==> r == -1.0
    ensures !UsablePrice(Utils.GetFloorPrice(floorPrices, y.symbol)) ==> r == -1.0
    ensures x.amount.None? || y.amount.None? ==> r == -1.0
  {
    if floorPrices.None? then -1.0
    else
      var pa := Utils.GetFloorPrice(floorPrices, x.symbol);
      var pb := Utils.GetFloorPrice(floorPrices, y.symbol);
      if UsablePrice(pa) && UsablePrice(pb) && x.amount.Some? && y.amount.Some? then
        LoanToValue(x.amount.value, pa.value) - LoanToValue(y.amount.value, pb.value)
      else -1.0
  }

  /** Applies a comparator to two rows. */
  function Compare(c: Comparator, a: Row, b: Row): real {
    match c
    case ByDuration(d) =>
      var (x, y) := Oriented(d, a, b);
      (x.duration - y.duration) as real
    case ByLtv(d, prices) =>
      var (x, y) := Oriented(d, a, b);
      LtvOrder(prices, x, y)
    case ByBasisPoints(d) =>
      var (x, y) := Oriented(d, a, b);
      (x.basisPoints - y.basisPoints) as real
    case ByAmount(d) =>
      var (x, y) := Oriented(d, a, b);
      AmountOrder(x, y) as real
    case Always1 => 1.0
  }

  /** The comparator with its direction replaced. */
  function WithDirection(c: Comparator, direction: int): Comparator {
    match c
    case ByDuration(_) => ByDuration(direction)
    case ByLtv(_, prices) => ByLtv(direction, prices)
    case ByBasisPoints(_) => ByBasisPoints(direction)
    case ByAmount(_) => ByAmount(direction)
    case Always1 => Always1
  }

  /** Descending order compares the swapped pair ascending. */
  lemma CompareDescending(c: Comparator, a: Row, b: Row)
    ensures Compare(WithDirection(c, -1), a, b) == Compare(WithDirection(c, 1), b, a)
  {
  }

  /** The APY column orders by basis points: the difference, negated when
      descending, so swapping the rows negates the result. */
  lemma SortByBasisPoints(direction: int, a: Row, b: Row)
    ensures direction == -1 ==> Compare(ByBasisPoints(direction), a, b) == (b.basisPoints - a.basisPoints) as real
    ensures direction != -1 ==> Compare(ByBasisPoints(direction), a, b) == (a.basisPoints - b.basisPoints) as real
    ensures Compare(ByBasisPoints(direction), a, b) == -Compare(ByBasisPoints(direction), b, a)
  {
  }

  /** The duration column likewise orders by duration. */
  lemma SortByDuration(direction: int, a: Row, b: Row)
    ensures direction == -1 ==> Compare(ByDuration(direction), a, b) == (b.duration - a.duration) as real
    ensures direction != -1 ==> Compare(ByDuration(direction), a, b) == (a.duration - b.duration) as real
    ensures Compare(ByDuration(direction), a, b) == -Compare(ByDuration(direction), b, a)
  {
  }

  /** The amount column is antisymmetric when both rows have an amount or
      exactly one has; two rows without an amount each compare as smaller
      than the other. */
  lemma SortByAmount(direction: int, a: Row, b: Row)
    ensures a.amount.Some? || b.amount.Some? ==>
      Compare(ByAmount(direction), a, b) == -Compare(ByAmount(direction), b, a)
    ensures a.amount.None? && b.amount.None? ==>
      Compare(ByAmount(direction), a, b) == -1.0 && Compare(ByAmount(direction), b, a) == -1.0
    ensures direction != -1 && a.amount.Some? && b.amount.None? ==> Compare(ByAmount(direction), a, b) == 1.0
  {
  }

  /** The LTV column returns -1 whenever it cannot compute both ratios, in
      either order of the rows. */
  lemma SortByLtvEarlyExit(direction: int, prices: Option<map<string, real>>, a: Row, b: Row)
    requires prices.None? || a.amount.None? || !UsablePrice(Utils.GetFloorPrice(prices, a.symbol))
    ensures Compare(ByLtv(direction, prices), a, b) == -1.0
    ensures Compare(ByLtv(direction, prices), b, a) == -1.0
  {
  }

  /** The default comparator puts every row after every other. */
  lemma UnlistedColumn(name: string, direction: int, prices: Option<map<string, real>>, a: Row, b: Row)
    ensures Compare(CompareBy(Unlisted(name), direction, prices), a, b) == 1.0
  {
  }
}

=== FILE: token_metadata.dfy ===
/** The parts of a Metaplex token-metadata account the dApp reads: the
    update authority, the NFT's mint, the on-chain name/symbol/uri, and the
    optional collection the NFT belongs to. The library's `pretty()` prints
    the two keys in base58 and passes the other fields through. */
module TokenMetadata {
  import opened Wrappers
  import Keys

  datatype Collection = Collection(verified: bool, key: Keys.PublicKey)

  /** `metadata.data`: the NFT's name, symbol and uri, NUL-padded on chain. */
  datatype MetadataData = MetadataData(name: string, symbol: string, uri: string, sellerFeeBasisPoints: nat)

  datatype Metadata = Metadata(
    key: nat,
    updateAuthority: Keys.PublicKey,
    mint: Keys.PublicKey,
    data: MetadataData,
    primarySaleHappened: bool,
    isMutable: bool,
    editionNonce: Option<nat>,
    collection: Option<Collection>)

  /** The JSON form: keys as base58 strings. The account-kind tag, which
      the dApp never reads back, is not modelled. */
  datatype MetadataPretty = MetadataPretty(
    updateAuthority: string,
    mint: string,
    data: MetadataData,
    primarySaleHappened: bool,
    isMutable: bool,
    editionNonce: Option<nat>,
    collection: Option<Collection>)

  /** `metadata.pretty()`. */
  function Pretty(m: Metadata): (p: MetadataPretty)
    ensures Keys.FromBase58(p.updateAuthority) == Success(m.updateAuthority)
    ensures Keys.FromBase58(p.mint) == Success(m.mint)
    ensures p.data == m.data && p.collection == m.collection
  {
    Keys.Base58RoundTrip(m.updateAuthority);
    Keys.Base58RoundTrip(m.mint);
    MetadataPretty(Keys.ToBase58(m.updateAuthority), Keys.ToBase58(m.mint), m.data,
      m.primarySaleHappened, m.isMutable, m.editionNonce, m.collection)
  }

  /** `Metadata.fromArgs({ key: 0, … })` as the dApp calls it: the two keys
      are parsed back (which fails on a malformed string) and the account
      kind is reset to 0. */
  function FromPretty(p: MetadataPretty): (r: Result<Metadata, Keys.KeyError>)
    ensures r.Success? <==> Keys.FromBase58(p.updateAuthority).Success? && Keys.FromBase58(p.mint).Success?
    ensures r.Success? ==> r.value.key == 0 && r.value.data == p.data && r.value.collection == p.collection
  {
    var authority :- Keys.FromBase58(p.updateAuthority);
    var mint :- Keys.FromBase58(p.mint);
    Success(Metadata(0, authority, mint, p.data, p.primarySaleHappened, p.isMutable, p.editionNonce, p.collection))
  }

  /** Printing and reading back keeps everything but the account kind, which
      becomes 0. */
  lemma PrettyRoundTrip(m: Metadata)
    ensures FromPretty(Pretty(m)) == Success(m.(key := 0))
  {
  }
}

=== FILE: utils.dfy ===
/** The loan arithmetic and display helpers of the dApp's utility module:
    late fee, interest due, amount on maturity, expiry, amount and duration
    formatting, NUL trimming and the symbol lookups. Amounts are lamports
    (non-negative integers); "now" is an explicit millisecond timestamp, as
    `Date.now()` returns it. */
module Utils {
  import opened Wrappers
  import opened Digits
  import Keys

  const SecondsPerYear: nat := 31_536_000
  const SecondsPerDay: nat := 86_400
  const LamportsPerSol: nat := 1_000_000_000
  const LateRepaymentFeeBasisPoints: nat := 500
  const BasisPointsDivisor: nat := 10_000

  /** The SOL sign every formatted amount ends with. */
  const Sol: char := '\U{25CE}'

  /** `isSystemProgram`: the key is the all-zero system program id. */
  predicate IsSystemProgram(k: Keys.PublicKey) {
    k == Keys.SystemProgramId
  }

  // ---------------------------------------------------------------------------
  // Durations

  /** `toDays`: the nearest whole number of days, halves rounded up as
      `Math.round` does. */
  function ToDays(seconds: int): (days: int)
    ensures days * SecondsPerDay - SecondsPerDay / 2 <= seconds < days * SecondsPerDay + SecondsPerDay / 2
  {
    (seconds + SecondsPerDay / 2) / SecondsPerDay
  }

  /** `formatDuration`: "<days> day" for exactly one day, "<days> days" otherwise. */
  function FormatDuration(seconds: int): (r: string)
    ensures ToDays(seconds) == 1 <==> r == "1 day"
    ensures ToDays(seconds) != 1 ==>
      |r| > 5 && r[|r| - 5..] == " days" && ParseInt(r[..|r| - 5]) == Some(ToDays(seconds))
  {
    var days := ToDays(seconds);
    if days == 1 then
      OneDayText();
      IntToString(days) + " day"
    else
      DaysText(days);
      IntToString(days) + " days"
  }

  lemma OneDayText()
    ensures IntToString(1) + " day" == "1 day"
  {
    assert ToDigits(1, 10) == ToDigits(0, 10) + [1];
    assert IntToString(1) == "1";
  }

  /** The plural text splits into the number, which parses back, and " days". */
  lemma DaysText(days: int)
    ensures var r := IntToString(days) + " days";
      && |r| > 5 && r[..|r| - 5] == IntToString(days) && r[|r| - 5..] == " days"
      && ParseInt(r[..|r| - 5]) == Some(days)
  {
    var s := IntToString(days);
    var r := s + " days";
    assert r[..|r| - 5] == s;
    assert r[|r| - 5..] == " days";
    ParseIntToString(days);
  }

  /** A duration is shown in the singular exactly when it is at least half a
      day and less than a day and a half. */
  lemma FormatDurationSingular(seconds: int)
    ensures FormatDuration(seconds) == "1 day" <==> SecondsPerDay / 2 <= seconds < 3 * SecondsPerDay / 2
  {
    var d := ToDays(seconds);
    if d >= 2 {
      assert seconds >= 2 * SecondsPerDay - SecondsPerDay / 2;
    } else if d <= 0 {
      assert seconds < SecondsPerDay / 2;
    }
  }

  // ---------------------------------------------------------------------------
  // Expiry

  /** `hasExpired`: the current time in (fractional) seconds is strictly past
      `startDate + duration`. */
  function HasExpired(startDate: int, duration: int, nowMs: int): (r: bool)
    ensures r <==> nowMs > 1000 * (startDate + duration)
  {
    (nowMs as real) / 1000.0 > (startDate + duration) as real
  }

  // ---------------------------------------------------------------------------
  // Fees and interest

  /** `calculateLateRepaymentFee`: 500 basis points of the amount, rounded down. */
  function LateRepaymentFee(amount: nat): (fee: nat)
    ensures fee * 20 <= amount < (fee + 1) * 20
  {
    amount * LateRepaymentFeeBasisPoints / BasisPointsDivisor
  }

  /** The fee never exceeds the amount and grows with it. */
  lemma LateRepaymentFeeBounds(a: nat, b: nat)
    ensures LateRepaymentFee(a) <= a
    ensures a <= b ==> LateRepaymentFee(a) <= LateRepaymentFee(b)
  {
    if a <= b {
      assert a * LateRepaymentFeeBasisPoints <= b * LateRepaymentFeeBasisPoints;
    }
  }

  /** The divisor turning basis points per year into a per-second rate:
      10,000 basis points times the seconds in a year. */
  const InterestDivisor: nat := 315_360_000_000

  /** `new BN(x / InterestDivisor)`: the quotient rounded toward zero, as
      `new BN` truncates a float. */
  function TruncDiv(x: int): (q: int)
    ensures x >= 0 ==> q >= 0 && q * InterestDivisor <= x < (q + 1) * InterestDivisor
    ensures x < 0 ==> q <= 0 && -x - InterestDivisor < -q * InterestDivisor <= -x
  {
    if x >= 0 then x / InterestDivisor else -((-x) / InterestDivisor)
  }

  /** The interest `amount * calculateProRataInterestRate(basisPoints, elapsed)`,
      computed exactly and truncated toward zero; the source multiplies in
      floating point first. */
  function ProRataInterest(amount: nat, basisPoints: int, elapsed: int): (r: int)
    ensures var x := amount * basisPoints * elapsed;
      && (x >= 0 ==> r * InterestDivisor <= x < (r + 1) * InterestDivisor)
      && (x < 0 ==> -x - InterestDivisor < -r * InterestDivisor <= -x)
  {
    TruncDiv(amount * basisPoints * elapsed)
  }

  lemma ProRataInterestNonNegative(amount: nat, basisPoints: int, elapsed: int)
    requires basisPoints >= 0 && elapsed >= 0
    ensures ProRataInterest(amount, basisPoints, elapsed) >= 0
  {
    assert amount * basisPoints >= 0;
    assert amount * basisPoints * elapsed >= 0;
  }

  /** `calculateInterestDue`: interest for the whole seconds elapsed since
      `startDate`, plus the late fee when the caller says the loan expired. */
  function InterestDue(amount: nat, startDate: int, basisPoints: int, expired: bool, nowMs: nat): (r: int)
    ensures var i := r - (if expired then LateRepaymentFee(amount) else 0);
      var x := amount * basisPoints * (nowMs / 1000 - startDate);
      && (x >= 0 ==> i * InterestDivisor <= x < (i + 1) * InterestDivisor)
      && (x < 0 ==> -x - InterestDivisor < -i * InterestDivisor <= -x)
  {
    var interest := ProRataInterest(amount, basisPoints, nowMs / 1000 - startDate);
    if expired then interest + LateRepaymentFee(amount) else interest
  }

  /** With `expired` computed by `hasExpired` at the same instant, the late fee
      is part of the interest due exactly when the loan is past its due date. */
  lemma InterestDueIncludesFeeIffExpired(amount: nat, startDate: int, duration: int, basisPoints: int, nowMs: nat)
    requires amount >= 20
    ensures var due := InterestDue(amount, startDate, basisPoints, HasExpired(startDate, duration, nowMs), nowMs);
            var interest := ProRataInterest(amount, basisPoints, nowMs / 1000 - startDate);
            && (nowMs > 1000 * (startDate + duration) ==> due == interest + LateRepaymentFee(amount))
            && (nowMs <= 1000 * (startDate + duration) ==> due == interest)
            && (due > interest <==> nowMs > 1000 * (startDate + duration))
  {
  }

  /** `calculateInterestOnMaturity`: the interest for the full duration. */
  function InterestOnMaturity(amount: nat, duration: int, basisPoints: int): (r: int)
    ensures var x := amount * basisPoints * duration;
      && (x >= 0 ==> r * InterestDivisor <= x < (r + 1) * InterestDivisor)
      && (x < 0 ==> -x - InterestDivisor < -r * InterestDivisor <= -x)
  {
    ProRataInterest(amount, basisPoints, duration)
  }

  /** `calculateAmountOnMaturity`: principal plus interest for the full duration. */
  function AmountOnMaturity(amount: nat, duration: int, basisPoints: int): (r: int)
    ensures var x := amount * basisPoints * duration;
      && (x >= 0 ==> (r - amount) * InterestDivisor <= x < (r - amount + 1) * InterestDivisor)
      && (x < 0 ==> -x - InterestDivisor < -(r - amount) * InterestDivisor <= -x)
  {
    amount + InterestOnMaturity(amount, duration, basisPoints)
  }

  /** Repaying at maturity never returns less than was lent, and a longer loan
      never costs less. */
  lemma AmountOnMaturityBounds(amount: nat, duration: int, basisPoints: int, longer: int)
    requires basisPoints >= 0 && 0 <= duration <= longer
    ensures AmountOnMaturity(amount, duration, basisPoints) >= amount
    ensures AmountOnMaturity(amount, duration, basisPoints) <= AmountOnMaturity(amount, longer, basisPoints)
  {
    ProRataInterestNonNegative(amount, basisPoints, duration);
    var k := amount * basisPoints;
    assert k >= 0;
    assert amount * basisPoints * duration == k * duration;
    assert amount * basisPoints * longer == k * longer;
    assert k * duration <= k * longer by {
      assert k * longer - k * duration == k * (longer - duration);
    }
    assert TruncDiv(k * duration) <= TruncDiv(k * longer);
  }

  /** One billion lamports at 1000 basis points for 30 days: 8,219,178
      lamports of interest. */
  lemma AmountOnMaturityExample()
    ensures AmountOnMaturity(1_000_000_000, 30 * SecondsPerDay, 1000) == 1_008_219_178
  {
    assert 1_000_000_000 * 1000 * (30 * SecondsPerDay) == 2_592_000_000_000_000_000;
    assert TruncDiv(2_592_000_000_000_000_000) == 8_219_178;
  }

  // ---------------------------------------------------------------------------
  // Amounts

  /** `Math.round(sol * 1000)`: the amount in thousandths of a SOL, halves
      rounded up. The source adds `Number.EPSILON` in floating point first. */
  function RoundedMilliSol(lamports: nat): (m: nat)
    ensures m * 1_000_000 <= lamports + 500_000 < (m + 1) * 1_000_000
  {
    (lamports + 500_000) / 1_000_000
  }

  /** The three digits of `f` after the point, zero-padded. */
  function ThreeDigits(f: nat): (s: string)
    requires f < 1000
    ensures |s| == 3
  {
    [Char(Decimal, f / 100), Char(Decimal, f / 10 % 10), Char(Decimal, f % 10)]
  }

  /** `.replace(/0{1,2}$/, "")`: drops two trailing zeros if there are two,
      else one if there is one. */
  function StripTrailingZeros(s: string): string {
    if |s| >= 2 && s[|s| - 2..] == "00" then s[..|s| - 2]
    else if |s| >= 1 && s[|s| - 1] == '0' then s[..|s| - 1]
    else s
  }

  /** The fractional digits of `f / 1000` left after `StripTrailingZeros`:
      three digits, with one or two trailing zeros dropped. */
  function KeptFraction(f: nat): (ds: seq<nat>)
    requires f < 1000
    ensures 1 <= |ds| <= 3 && IsDigits(ds, 10)
    ensures FromDigits(ds, 10) * Pow(10, 3 - |ds|) == f
    ensures var t := [f / 100, f / 10 % 10, f % 10];
      && ds == t[..|ds|]
      && (forall i :: |ds| <= i < 3 ==> t[i] == 0)
      && (|ds| >= 2 ==> ds[|ds| - 1] != 0)
  {
    var x, y, z := f / 100, f / 10 % 10, f % 10;
    ThreeDecimalDigits(f);
    if y == 0 && z == 0 then
      FromDigitsThree(x, y, z);
      assert Pow(10, 2) == 100;
      [x]
    else if z == 0 then
      FromDigitsThree(x, y, z);
      assert Pow(10, 1) == 10;
      [x, y]
    else
      FromDigitsThree(x, y, z);
      assert Pow(10, 0) == 1;
      [x, y, z]
  }

  lemma FromDigitsThree(x: nat, y: nat, z: nat)
    ensures FromDigits([x], 10) == x
    ensures FromDigits([x, y], 10) == 10 * x + y
    ensures FromDigits([x, y, z], 10) == 100 * x + 10 * y + z
  {
    FromDigitsSnoc([], x, 10);
    assert [] + [x] == [x];
    FromDigitsSnoc([x], y, 10);
    assert [x] + [y] == [x, y];
    FromDigitsSnoc([x, y], z, 10);
    assert [x, y] + [z] == [x, y, z];
  }

  lemma ThreeDecimalDigits(f: nat)
    requires f < 1000
    ensures f / 100 < 10 && f / 10 % 10 < 10 && f % 10 < 10
    ensures f == 100 * (f / 100) + 10 * (f / 10 % 10) + f % 10
  {
    var x, r := f / 100, f % 100;
    var y, z := r / 10, r % 10;
    assert f == (10 * x + y) * 10 + z;
    QuotientOfSnoc(10 * x + y, z, 10);
    QuotientOfSnoc(x, y, 10);
  }

  /** Stripping the zeros of `intPart + "." + ThreeDigits(f)` leaves the whole
      part, the point and the kept fraction. */
  lemma StripFixed(intPart: string, f: nat)
    requires f < 1000
    ensures StripTrailingZeros(intPart + "." + ThreeDigits(f)) == intPart + "." + Spell(KeptFraction(f), Decimal)
  {
    var t := ThreeDigits(f);
    var fixed := intPart + "." + t;
    var n := |fixed|;
    assert fixed[n - 2..] == t[1..];
    assert fixed[n - 1] == t[2];
    var x, y, z := f / 100, f / 10 % 10, f % 10;
    if y == 0 && z == 0 {
      assert fixed[n - 2..] == "00";
      assert fixed[..n - 2] == intPart + "." + [t[0]];
    } else if z == 0 {
      assert t[1] != '0';
      assert fixed[..n - 1] == intPart + "." + [t[0], t[1]];
    } else {
      assert t[2] != '0';
      assert t == [t[0], t[1], t[2]];
    }
  }

  /** `(m / 1000).toFixed(3)` with one or two trailing zeros dropped: the
      whole part, a point, and one to three fractional digits. */
  function FormatMilli(m: nat): (s: string)
    ensures IndexOf(s, '.') == Some(|Render(m / 1000, Decimal)|)
    ensures s[..|Render(m / 1000, Decimal)|] == Render(m / 1000, Decimal)
    ensures 1 <= |s| - 1 - |Render(m / 1000, Decimal)| <= 3
    ensures var frac := s[|Render(m / 1000, Decimal)| + 1..];
      && frac == ThreeDigits(m % 1000)[..|frac|]
      && (forall i :: |frac| <= i < 3 ==> ThreeDigits(m % 1000)[i] == '0')
      && (|frac| >= 2 ==> frac[|frac| - 1] != '0')
  {
    var intPart := Render(m / 1000, Decimal);
    var f := m % 1000;
    StripFixed(intPart, f);
    var s := StripTrailingZeros(intPart + "." + ThreeDigits(f));
    NoPointInDigits(intPart);
    assert s[|intPart|] == '.';
    KeptDigitsSpelled(f);
    assert s[|intPart| + 1..] == Spell(KeptFraction(f), Decimal);
    s
  }

  /** The kept fraction, spelled: a prefix of the three printed digits, the
      dropped ones all '0', and no '0' last when two or three remain. */
  lemma KeptDigitsSpelled(f: nat)
    requires f < 1000
    ensures var frac := Spell(KeptFraction(f), Decimal);
      && frac == ThreeDigits(f)[..|frac|]
      && (forall i :: |frac| <= i < 3 ==> ThreeDigits(f)[i] == '0')
      && (|frac| >= 2 ==> frac[|frac| - 1] != '0')
  {
    var ds := KeptFraction(f);
    var t := [f / 100, f / 10 % 10, f % 10];
    ThreeDecimalDigits(f);
    var frac := Spell(ds, Decimal);
    var three := ThreeDigits(f);
    forall i | 0 <= i < 3 ensures three[i] == Char(Decimal, t[i]) && (three[i] == '0' <==> t[i] == 0) {
    }
    forall i | 0 <= i < |frac| ensures frac[i] == three[i] {
      assert ds[i] == t[i];
    }
  }

  lemma NoPointInDigits(digits: string)
    requires forall i :: 0 <= i < |digits| ==> Value(Decimal, digits[i]).Some?
    ensures forall i :: 0 <= i < |digits| ==> digits[i] != '.'
  {
  }

  /** Reads a parsed SOL amount such as "12.3" back into thousandths of a SOL;
      the partner of `FormatMilli`. */
  function ParseMilli(s: string): Option<nat> {
    match IndexOf(s, '.')
    case None => None
    case Some(dot) =>
      var frac := s[dot + 1..];
      if 1 <= |frac| <= 3 then
        match (Parse(s[..dot], Decimal), Parse(frac, Decimal))
        case (Some(whole), Some(f)) => Some(Thousandths(whole, f, |frac|))
        case _ => None
      else None
  }

  /** The thousandths a whole part and `digits` fractional digits of value
      `f` denote. */
  function Thousandths(whole: nat, f: nat, digits: nat): nat
    requires digits <= 3
  {
    whole * 1000 + f * Pow(10, 3 - digits)
  }

  /** Position of the first occurrence of `c`. */
  function IndexOf(s: string, c: char): (r: Option<nat>)
    ensures r.Some? ==> r.value < |s| && s[r.value] == c && forall i :: 0 <= i < r.value ==> s[i] != c
    ensures r.None? ==> forall i :: 0 <= i < |s| ==> s[i] != c
  {
    if s == [] then None
    else if s[0] == c then Some(0)
    else
      match IndexOf(s[1..], c)
      case None => None
      case Some(i) => Some(i + 1)
  }

  /** A whole part, a point and one to three fractional digits read back as
      the thousandths they denote. */
  lemma ParseMilliOf(intPart: string, frac: string, whole: nat, f: nat)
    requires Parse(intPart, Decimal) == Some(whole) && Parse(frac, Decimal) == Some(f)
    requires 1 <= |frac| <= 3
    ensures ParseMilli(intPart + "." + frac) == Some(Thousandths(whole, f, |frac|))
  {
    var s := intPart + "." + frac;
    NoPointInDigits(intPart);
    assert s[|intPart|] == '.';
    assert IndexOf(s, '.') == Some(|intPart|);
    assert s[..|intPart|] == intPart;
    assert s[|intPart| + 1..] == frac;
  }

  /** Every formatted value reads back as the thousandths it was printed from. */
  lemma ParseFormatMilli(m: nat)
    ensures ParseMilli(FormatMilli(m)) == Some(m)
  {
    var q, f := m / 1000, m % 1000;
    var intPart := Render(q, Decimal);
    var ds := KeptFraction(f);
    var frac := Spell(ds, Decimal);
    StripFixed(intPart, f);
    assert FormatMilli(m) == intPart + "." + frac;
    ParseRender(q, Decimal);
    ReadSpell(ds, Decimal);
    ParseMilliOf(intPart, frac, q, FromDigits(ds, 10));
    assert Thousandths(q, FromDigits(ds, 10), |frac|) == q * 1000 + f;
  }

  /** `formatAmount`: "" with no amount, "0◎" for zero, "~0.001◎" when the
      rounded value is at most 0.001 SOL, otherwise the rounded value with
      one to three decimals and "◎". The source memoises results per amount,
      which does not change them. */
  function FormatAmount(amount: Option<nat>): (r: string)
    ensures amount.None? <==> r == ""
    ensures amount == Some(0) ==> r == "0" + [Sol]
    ensures r != "" ==> r[|r| - 1] == Sol
    ensures amount.Some? && amount.value > 0 && RoundedMilliSol(amount.value) <= 1 ==> r == "~0.001" + [Sol]
    ensures amount.Some? && RoundedMilliSol(amount.value) > 1 ==> r == FormatMilli(RoundedMilliSol(amount.value)) + [Sol]
  {
    match amount
    case None => ""
    case Some(lamports) =>
      if lamports == 0 then "0" + [Sol]
      else
        var m := RoundedMilliSol(lamports);
        if m > 1 then FormatMilli(m) + [Sol] else "~0.001" + [Sol]
  }

  /** Reading a formatted amount back: drop the SOL sign and parse. */
  function ParseAmount(s: string): Option<nat> {
    if |s| >= 1 && s[|s| - 1] == Sol then ParseMilli(s[..|s| - 1]) else None
  }

  /** 1008 thousandths print as "1.008". */
  lemma FormatMilliExample()
    ensures FormatMilli(1008) == "1.008"
  {
    assert 1008 / 1000 == 1 && 1008 % 1000 == 8;
    RenderOne();
    KeptEight();
    StripFixed("1", 8);
    assert "1" + "." + "008" == "1.008";
  }

  lemma RenderOne()
    ensures Render(1, Decimal) == "1"
  {
    assert ToDigits(1, 10) == ToDigits(0, 10) + [1];
  }

  lemma KeptEight()
    ensures Spell(KeptFraction(8), Decimal) == "008"
  {
    assert KeptFraction(8) == [0, 0, 8];
  }

  /** The amount of the interest example is shown as 1.008 SOL. */
  lemma FormatAmountExample()
    ensures FormatAmount(Some(1_008_219_178)) == "1.008" + [Sol]
  {
    assert RoundedMilliSol(1_008_219_178) == 1008;
    FormatMilliExample();
  }

  /** A formatted non-trivial amount reads back as its rounded value in
      thousandths of a SOL. */
  lemma FormatAmountReadsBack(lamports: nat)
    requires RoundedMilliSol(lamports) > 1
    ensures ParseAmount(FormatAmount(Some(lamports))) == Some(RoundedMilliSol(lamports))
  {
    var m := RoundedMilliSol(lamports);
    var s := FormatMilli(m);
    assert (s + [Sol])[..|s|] == s;
    ParseFormatMilli(m);
  }

  /** Formatting is stable: formatting the amount a formatted string denotes
      gives the same string again. */
  lemma FormatAmountStable(lamports: nat)
    requires RoundedMilliSol(lamports) > 1
    ensures var m := ParseAmount(FormatAmount(Some(lamports)));
            m.Some? && FormatAmount(Some(m.value * 1_000_000)) == FormatAmount(Some(lamports))
  {
    FormatAmountReadsBack(lamports);
    var m := RoundedMilliSol(lamports);
    assert RoundedMilliSol(m * 1_000_000) == m;
  }

  /** A non-zero amount is shown as "~0.001◎" exactly when it is below 0.0015 SOL. */
  lemma FormatAmountApproximate(lamports: nat)
    requires lamports > 0
    ensures FormatAmount(Some(lamports)) == "~0.001" + [Sol] <==> lamports < 1_500_000
  {
    var m := RoundedMilliSol(lamports);
    if m > 1 {
      var s := FormatMilli(m);
      ParseRender(m / 1000, Decimal);
      assert Value(Decimal, s[0]).Some? by {
        assert s[0] == Render(m / 1000, Decimal)[0];
      }
      assert (s + [Sol])[0] != '~';
    }
  }

  // ---------------------------------------------------------------------------
  // Symbols

  /** `trimNullChars`: every NUL removed, the other characters kept in order. */
  function TrimNullChars(s: string): (r: string)
    ensures |r| <= |s|
    ensures forall i :: 0 <= i < |r| ==> r[i] != '\0'
    ensures forall c :: c != '\0' ==> multiset(r)[c] == multiset(s)[c]
  {
    if s == [] then []
    else
      var rest := TrimNullChars(s[1..]);
      assert s == [s[0]] + s[1..];
      if s[0] == '\0' then rest else [s[0]] + rest
  }

  /** Trimming distributes over concatenation, so relative order is kept; it
      is the identity on NUL-free text and therefore idempotent. */
  lemma {:induction false} TrimNullCharsConcat(a: string, b: string)
    ensures TrimNullChars(a + b) == TrimNullChars(a) + TrimNullChars(b)
  {
    if a != [] {
      assert (a + b)[1..] == a[1..] + b;
      TrimNullCharsConcat(a[1..], b);
    } else {
      assert a + b == b;
    }
  }

  lemma {:induction false} TrimNullCharsIdentity(s: string)
    requires forall i :: 0 <= i < |s| ==> s[i] != '\0'
    ensures TrimNullChars(s) == s
  {
    if s != [] {
      TrimNullCharsIdentity(s[1..]);
    }
  }

  lemma TrimNullCharsIdempotent(s: string)
    ensures TrimNullChars(TrimNullChars(s)) == TrimNullChars(s)
  {
    TrimNullCharsIdentity(TrimNullChars(s));
  }

  /** `toLowerCase` on the ASCII letters. */
  function ToLowerAscii(s: string): (r: string)
    ensures |r| == |s|
  {
    seq(|s|, i requires 0 <= i < |s| => if 'A' <= s[i] <= 'Z' then (s[i] as int + 32) as char else s[i])
  }

  /** `getFloorPrice`: no price unless both a price table and a non-empty
      symbol are given; otherwise the entry for the trimmed, lower-cased symbol. */
  function GetFloorPrice(floorPrices: Option<map<string, real>>, symbol: Option<string>): (r: Option<real>)
    ensures floorPrices.None? || symbol.None? || symbol == Some("") ==> r.None?
    ensures floorPrices.Some? && symbol.Some? && symbol.value != "" ==>
      var key := ToLowerAscii(TrimNullChars(symbol.value));
      && (r.Some? <==> key in floorPrices.value)
      && (r.Some? ==> r.value == floorPrices.value[key])
  {
    match (floorPrices, symbol)
    case (Some(prices), Some(sym)) =>
      if sym == "" then None
      else
        var key := ToLowerAscii(TrimNullChars(sym));
        if key in prices then Some(prices[key]) else None
    case _ => None
  }

  /** NUL padding on a symbol does not change the price found for it. */
  lemma GetFloorPricePadded(floorPrices: Option<map<string, real>>, symbol: string, padding: nat)
    requires symbol != ""
    ensures GetFloorPrice(floorPrices, Some(symbol + seq(padding, i => '\0'))) == GetFloorPrice(floorPrices, Some(symbol))
  {
    var pad := seq(padding, i => '\0');
    TrimNullCharsConcat(symbol, pad);
    assert TrimNullChars(pad) == [] by { NoNulLeft(pad); }
    assert TrimNullChars(symbol) + [] == TrimNullChars(symbol);
  }

  /** The lookup ignores the case of ASCII letters in the symbol. */
  lemma GetFloorPriceCaseInsensitive(floorPrices: Option<map<string, real>>, symbol: string)
    ensures GetFloorPrice(floorPrices, Some(ToLowerAscii(symbol))) == GetFloorPrice(floorPrices, Some(symbol))
  {
    LowerTrimCommute(symbol);
    var t := TrimNullChars(symbol);
    assert ToLowerAscii(ToLowerAscii(t)) == ToLowerAscii(t);
  }

  /** Folding case and removing NULs can be done in either order. */
  lemma {:induction false} LowerTrimCommute(s: string)
    ensures TrimNullChars(ToLowerAscii(s)) == ToLowerAscii(TrimNullChars(s))
  {
    if s != [] {
      LowerTrimCommute(s[1..]);
      assert ToLowerAscii(s)[1..] == ToLowerAscii(s[1..]);
      var rest := ToLowerAscii(TrimNullChars(s[1..]));
      if s[0] != '\0' {
        assert TrimNullChars(s) == [s[0]] + TrimNullChars(s[1..]);
        assert ToLowerAscii([s[0]] + TrimNullChars(s[1..])) == ToLowerAscii([s[0]]) + rest;
      }
    }
  }

  lemma {:induction false} NoNulLeft(s: string)
    requires forall i :: 0 <= i < |s| ==> s[i] == '\0'
    ensures TrimNullChars(s) == []
  {
    if s != [] {
      NoNulLeft(s[1..]);
    }
  }

  /** The symbol-to-collection-name table. */
  const NameMap: map<string, string> := map[
    "CHKN" := "chicken_tribe",
    "CHKCOP" := "chicken_tribe_coops",
    "XAPE" := "exiled_degen_ape_academy",
    "BH" := "lgtb",
    "LGTB" := "lgtb",
    "NOOT" := "pesky_penguins"]

  /** `mapSymbolToCollectionName`: the table entry for the NUL-trimmed symbol. */
  function MapSymbolToCollectionName(symbol: string): (r: Option<string>)
    ensures r.Some? <==> TrimNullChars(symbol) in NameMap
    ensures r.Some? ==> r.value == NameMap[TrimNullChars(symbol)]
  {
    var key := TrimNullChars(symbol);
    if key in NameMap then Some(NameMap[key]) else None
  }

  /** On-chain symbols are NUL-padded; the padded symbol finds its collection. */
  lemma MapSymbolPadded(symbol: string, padding: nat)
    ensures MapSymbolToCollectionName(symbol + seq(padding, i => '\0')) == MapSymbolToCollectionName(symbol)
  {
    var pad := seq(padding, i => '\0');
    TrimNullCharsConcat(symbol, pad);
    NoNulLeft(pad);
    assert TrimNullChars(symbol) + [] == TrimNullChars(symbol);
  }

  /** An on-chain symbol padded with NULs finds its collection. */
  lemma MapSymbolExample()
    ensures MapSymbolToCollectionName("CHKN\0\0\0\0\0\0") == Some("chicken_tribe")
  {
    TrimNullCharsConcat("CHKN", "\0\0\0\0\0\0");
    NoNulLeft("\0\0\0\0\0\0");
    TrimNullCharsIdentity("CHKN");
    assert "CHKN" + "\0\0\0\0\0\0" == "CHKN\0\0\0\0\0\0";
  }
}

=== FILE: wrappers.dfy ===
/** Missing values and thrown errors, as used throughout the model: `Option` for the
    source's `undefined`/`null` values and `Result` for thrown errors. */
module Wrappers {

  /** A value that may be missing (`undefined` or `null` in the source). */
  datatype Option<+T> = None | Some(value: T) {

    /** A missing value stops a `:-` chain. */
    predicate IsFailure() {
      None?
    }

    /** The missing value, retyped for the enclosing `:-` chain. */
    function PropagateFailure<U>(): Option<U>
      requires None?
    {
      None
    }

    /** The present value. */
    function Extract(): T
      requires Some?
    {
      value
    }

    /** The present value, or `default` when it is missing (`?? default`). */
    function GetOr(default: T): T {
      match this
      case Some(v) => v
      case None() => default
    }
  }

  /** Either a computed value or the error the source would throw. */
  datatype Result<+R, +E> = Success(value: R) | Failure(error: E) {

    /** A thrown error stops a `:-` chain. */
    predicate IsFailure() {
      Failure?
    }

    /** The thrown error, retyped for the enclosing `:-` chain. */
    function PropagateFailure<U>(): Result<U, E>
      requires Failure?
    {
      Failure(error)
    }

    /** The computed value. */
    function Extract(): R
      requires Success?
    {
      value
    }
  }
}
